=== FILE: README.md ===
# pics — a Dafny model of the gallery bookkeeping

`pics` is a small self-hosted photo gallery: a Node/Express server that
accepts uploads into gallery documents, and browser scripts that show a
gallery as a scrolling grid of thumbnails and a full-size viewer. This
project models the sequential bookkeeping of that system and proves what it
promises:

- **Server decisions** (`api.js`): the byte-signature sniffing of JPEG and
  HEIC uploads (`FileType`), the 20-character random keys (`Keys`), the
  stored name and retained original of each upload, the entry appended to
  the gallery document, and the document changes of gallery creation
  (`Api`).
- **Sorted collections** (`album.js`, `gallery.js`): objects plus a view
  kept sorted by date, with binary-search insertion, removal from both
  lists and the change ranges reported to listeners (`DateView`, `Album`,
  `Gallery`).
- **Thumbnail grid** (`thumbs.js`, `client.js`): the ceiling-division
  layout of columns, sizes and rows (`Grid`), the pool of reusable slots and
  the slot-to-image mapping, the change-range clamp and the year table
  (`Thumbs`), and the older page's flat thumbnail list (`Client`).
- **Viewer window** (`image.js`): three slots over the sorted view, with
  navigation and deletion keeping slot `k` bound to entry
  `active + k - 1` (`Viewer`).
- **Touch tracking** (`feeler.js`, `client.js`): the touch list of a
  feeler, its listeners, `disable` and the tap recogniser (`Feeler`), and
  the scroll bookkeeping of the upload page (`Client`).

Randomness, file and network I/O are parameters: `makeKey`'s four draws,
the key multer chose for an upload, the parsed gallery or admin document
(or its absence), and a map of documents standing for the server when a
collection is loaded. A listener is a triple of pure functions over a state
of its own. Dates are integers and pixel sizes natural numbers; touch
positions are reals.

Files: `common.dfy` (Option, Result), `seqs.dfy` (`indexOf` and
`splice(start, 1)`), `filetype.dfy`, `keys.dfy`, `api.dfy`,
`dateview.dfy`, `album.dfy`, `gallery.dfy`, `grid.dfy`, `thumbs.dfy`,
`viewer.dfy`, `touchlist.dfy` (the identifier lookup shared by the two
touch trackers), `feeler.dfy`, `client.dfy`.

## Model

| member | source | states |
|---|---|---|
| Seqs.IndexOf | album.js:84 | `indexOf`: -1 exactly when the value is absent, otherwise the first position holding it |
| Seqs.Splice1 | album.js:84-85 | `splice(start, 1)`: removes the element at an index in range, nothing at or past the end, the last element for -1 |
| Seqs.RemoveAtMultiset | gallery.js:83-84 | removing one position takes exactly that element out of the multiset |
| FileType.Scan | api.js:27-33 | the scan reports "no match" exactly when every signature from `i` on fits the file and misses; otherwise its result is that of the first signature that is out of range or hits |
| FileType.GetFileType | api.js:15-41 | a returned kind is the kind of a table entry whose bytes occur in the file; the no-match errors mean no entry occurs; the unknown-signature error carries the first 16 bytes |
| FileType.GetFileTypeSpec | api.js:15-41 | 'jpeg' exactly for FF D8 FF followed by DB, E0, EE or E1; 'heic' exactly for a non-JPEG with "ftypheic" at bytes 4..11; an error otherwise, carrying the 16-byte prefix when there is one |
| FileType.ScanJpeg | api.js:21-24 | on a file of at least 4 bytes the four JPEG entries together decide JPEG, or pass on to the HEIC entry |
| FileType.ScanHeicShort | api.js:25 | the HEIC range 4..12 on a file shorter than 12 bytes is out of range, which throws |
| FileType.ScanHeicLong | api.js:25 | on a file of 12 or more bytes the HEIC entry decides exactly `IsHeic` |
| FileType.NameIgnored | api.js:15-41 | the type depends only on the bytes, never on the file name (the extension fallback after the throw is unreachable) |
| FileType.JpegEntriesWin | api.js:27-33 | a file matching both a JPEG and the HEIC signature is JPEG: the first matching entry wins |
| Keys.ToBase36 | api.js:66 | `toBase36` gives base-36 digits whose value is the number |
| Keys.ToBase36Length | api.js:60-61 | a draw below 36^5 has at most five digits |
| Keys.LeadingZero | api.js:69 | a leading '0' keeps the value of a digit string |
| Keys.PadChunk | api.js:67-70 | padding gives exactly five digits: zeros then the original digits, the same value |
| Keys.PrependChunk | api.js:71 | prepending the padded chunk of draw `i` extends a key encoding draws `0..i-1` to one encoding `0..i` |
| Keys.MakeKey | api.js:58-75 | the key is 20 base-36 digits whose four 5-digit chunks, read right to left, are the four draws |
| Keys.KeyHasNoDot | api.js:156 | a key contains no '.' |
| Api.LastDot | api.js:200 | the position of the last '.', or -1 when there is none |
| Api.Stem | api.js:200 | `path.parse(name).name`: a prefix of the name; when shorter, it is cut at the last '.', which is not the first character |
| Api.StoredNames | api.js:197-210 | the stored name ends in ".jpg"; before it stands the upload's stem for a JPEG, the fresh key for a HEIC; the retained original is "" for a JPEG and the uploaded file's name for a HEIC |
| Api.StemOfStoredUpload | api.js:155-156 | the stem of multer's "key.ext" name is the key |
| Api.Upload | api.js:176-240 | an unreadable gallery is an error; a request without a file fails before any response (reading `req.file.filename` throws outside the `try`); otherwise success exactly for a JPEG or HEIC upload into a gallery document, appending one entry titled with the client's name after the earlier ones; JPEG: stored as stem + ".jpg", original ""; HEIC: stored as a fresh key + ".jpg", original the uploaded name; a recognised upload to a write-access document stores those files and then fails at the `push` |
| Api.WriteKeyUploadIsLost | api.js:233-240 | an upload addressed by a write-access key stores the same entry the gallery's own key would, but fails instead of adding it (gallery.js:37-43 reads such `{galleryKey}` documents from the same directory, and the upload form sends the page's own key, client.js:40-43 and 129) |
| Api.JpegKeepsUploadKey | api.js:197-203 | a JPEG saved as "key.ext" is stored as "key.jpg" with no retained original |
| Api.UploadsOnlyAppend | api.js:233-240 | successive uploads keep the name and every earlier entry in place and add one entry per recognised upload |
| Api.CreateGallery | api.js:90-133 | a gallery `{name, images: []}` is created, and its key appended to the admin's galleries, exactly when the request is JSON and the admin document has type 'admin'; an unreadable admin document is a failure response |
| Api.FirstUploadIntoNewGallery | api.js:116-127 | a first recognised upload into a newly created gallery leaves exactly its own entry |
| DateView.LowerBound | album.js:61-71 | the binary search returns the lower bound: every earlier view date is smaller, every later one not smaller |
| DateView.InsertAtBound | album.js:72 | splicing in at the lower bound keeps the view sorted and adds exactly the new item |
| DateView.Add | album.js:54-74 | `objects` gains the item at its end; the view gains it at the lower bound of its date and stays sorted; the change range is from there to the last position |
| DateView.RemoveAsWritten | album.js:76-88 | `remove` as written: on an index in the view it agrees with the corrected `Remove`; outside the view it throws after dropping the last object; past the end the view is left as it was, and a negative index removes the view entry at `length + index`, or the first one when that is negative |
| DateView.RemovePastEndDropsLastObject | album.js:84-88 | an index past the view's end leaves the view alone, drops the last object and then throws, leaving view and objects out of step |
| DateView.Remove | album.js:76-86 | the corrected `remove`: for an index in the view the entry leaves the view at that position and its first copy leaves the objects, both in order; the change range is `[i, new length]`; nothing changes otherwise |
| DateView.RemoveValid | gallery.js:83-84 | removing the entry from both lists keeps the view a sorted permutation of the objects |
| DateView.InsertAfterEqual | album.js:30 | one insertion step of the sort keeps it sorted and adds exactly the item |
| DateView.SortByDate | album.js:29-30 | the sorted copy is sorted by date and a permutation of the objects |
| DateView.Load | album.js:21-32 | loading keeps the objects, makes the view a sorted permutation of them and reports the whole view changed |
| Album.LoadAlbum | album.js:21-32 | the name and objects come from the document and the view is a sorted permutation of them |
| Album.Load | album.js:11-52 | an album document loads under its own key; a collection document records the collection key and loads its `main` album instead; a missing document is a failure |
| Album.Add | album.js:54-74 | the album's keys and name stay; the object is appended to the objects, and the new view is the old view with the object spliced in at its lower bound; the change covers the insertion index to the end |
| Album.Remove | album.js:76-86 | the corrected `remove`: the name stays, the entry at `i` leaves the view, and the objects lose the copy at its `indexOf` position, the rest keeping their order; the change is `[i, new length]`; an index outside the view changes nothing (as written it drops the last object, see Findings) |
| Gallery.LoadGallery | gallery.js:21-32 | the name and images come from the document and the view is a sorted permutation of them |
| Gallery.Load | gallery.js:11-51 | a gallery document loads under its own key; a document with `galleryKey` makes the given key the write key and loads the referenced gallery; a missing document is a failure |
| Gallery.Add | gallery.js:53-73 | the gallery's keys and name stay; the image is appended to the images, and the new view is the old view with the image spliced in at its lower bound; the change covers the insertion index to the end |
| Gallery.Remove | gallery.js:75-85 | the corrected `remove`: the name stays, the entry at `i` leaves the view, and the images lose the copy at its `indexOf` position, the rest keeping their order; the change is `[i, new length]`; an index outside the view changes nothing (as written it drops the last image, see Findings) |
| Grid.CeilDiv | thumbs.js:148 | `Math.ceil(a / b)`: the least multiple count covering `a` |
| Grid.ColumnsFor | thumbs.js:148-150 | the fewest columns for which no thumbnail exceeds 200 px (at least one); a size of at most 200, positive exactly for a positive width; an end width no larger than the size |
| Grid.ColumnsBounds | client.js:149-151 | the ceiling bounds that give the size and end-width ranges |
| Grid.RowsFor | thumbs.js:151 | no row count for a non-positive size; otherwise at least one row, the rows cover the height with a row to spare, and no more than needed |
| Grid.RowSpanBeforeEnd | thumbs.js:188-195 | the thumbnails before a row's end span `n` sizes and `n - 1` margins |
| Grid.RowSpanFull | thumbs.js:150 | with the end width defined as the remainder, a row spans the width |
| Grid.RowFillsWidth | client.js:149-151 | a full row of thumbnails and margins covers the container width exactly |
| Thumbs.InitialWellFormed | thumbs.js:142-200 | the empty grid before the first resize is well-formed |
| Thumbs.AdjustSlots | thumbs.js:161-179 | the slot count becomes the target: excess slots are removed from the end, missing ones appended unstyled with handlers reporting their own positions |
| Thumbs.Restyle | thumbs.js:185-196 | every slot gets the common size, or the end width when its 1-based position is a multiple of `cols`, keeping its handler |
| Thumbs.ResizeAsWritten | thumbs.js:142-197 | `resize` as written: the same layout and slot count as the corrected `Resize`, and the same grid whenever columns, size or end width change |
| Thumbs.TallerWindowLeavesSlotsUnstyled | thumbs.js:152-196 | growing a 1000 x 100 container to 1000 x 500 leaves all ten appended slots, 10 to 19, without size attributes |
| Thumbs.Resize | thumbs.js:142-197 | the corrected `resize`: the layout follows the container, there are `cols * rows` slots, and a well-formed grid stays well-formed |
| Thumbs.ResizeCovers | thumbs.js:148-151 | after a resize the rows cover the height and a row covers the width |
| Thumbs.SlotTargetAsWritten | thumbs.js:147-179 | the slot count `resize` grows towards is `Infinity` exactly for a zero-width, non-zero-height container, `NaN` for a 0 x 0 one, and otherwise at least one row of columns |
| Thumbs.ResizeChecked | thumbs.js:142-197 | the corrected `resize` for every width: a zero-width container leaves the grid as it is; any other width lays out as `Resize`; well-formedness and the `cols * rows` slot count are kept |
| Thumbs.ThumbImage | thumbs.js:44-54 | a slot is hidden exactly when its image index is past the view |
| Thumbs.Click | thumbs.js:65-70 | `click` reports the same position `updateThumbImage` shows in that slot, which lies in row `virtualRow` and column `thumbIndex` of the view |
| Thumbs.RowAndColumn | thumbs.js:68 | position `row * cols + col` lies in row `row` and column `col` |
| Thumbs.ClickOpensShownImage | thumbs.js:65-70 | clicking a slot of a well-formed grid reports the view position of the image the slot shows |
| Thumbs.ThumbRange | thumbs.js:207-212 | a slot index is updated exactly when it is a live slot whose image index lies in the change range |
| Thumbs.MaxBefore | thumbs.js:219-227 | `lastYear` after `i` steps: 0 or one of the first `i` years, and at least all of them |
| Thumbs.RecordAboveMax | thumbs.js:223 | a year exceeds `lastYear` exactly when it is positive and larger than every year before it |
| Thumbs.RecordsSound | thumbs.js:218-228 | every table entry names a record position and its year, in increasing position order |
| Thumbs.RecordsComplete | thumbs.js:218-228 | every record position has a table entry |
| Thumbs.RecordsIncrease | thumbs.js:218-228 | table years and indices both strictly increase |
| Thumbs.YearTable | thumbs.js:218-228 | the loop builds exactly the records, with strictly increasing years and positions |
| Thumbs.RecordIsFirstOfYear | thumbs.js:218-228 | on a date-sorted view a position is an entry exactly when it is the first with its (positive) year |
| Viewer.CreateImage | image.js:46-74 | no slot content exactly outside `[0, length)`, otherwise the entry at the index |
| Viewer.Show | image.js:318-343 | the three slots hold the entries at `index - 1`, `index`, `index + 1` (or nothing); the call throws (in `onChangeImage`) exactly when `index` is outside the view, after the window was replaced |
| Viewer.Navigate | image.js:130-177 | any direction but 1 and -1 is an error; nothing changes at either end; otherwise `active` moves by `d`, the slots shift, the entering slot holds the entry at old `active + 2d`, and the window stays bound |
| Viewer.NavigateStaysInView | image.js:137-147 | navigation moves only onto an entry of the view |
| Viewer.NavigateBack | image.js:130-177 | a step and a step back restore the window and the active index |
| Viewer.Close | image.js:110-128 | closing empties the window |
| Viewer.DeleteImage | image.js:180-223 | the gallery entry is removed; an emptied view closes the viewer; otherwise the survivors close up and a new entry enters on the right (index kept) when forward, on the left (index decremented) when not |
| Viewer.SurvivorsAfterRemove | image.js:194-196 | after the removal the left neighbour is still at `active - 1` and the right one is now at `active` |
| Viewer.RefillBound | image.js:198-211 | the refilled window is bound to the new view and its active index lies inside it |
| Viewer.Refilled | image.js:318-329 | three slots holding consecutive entries around `active` are bound |
| Viewer.DeleteImageKeepsWindow | image.js:180-223 | after a delete that leaves entries, every slot is bound to the new view and the active index is in range |
| Viewer.DeleteLastCloses | image.js:187-190 | deleting the only entry leaves the window empty |
| TouchList.FirstIndex | feeler.js:91-101 | `getTouchIndex` of both trackers (also client.js:203-214): -1 exactly when no touch has the identifier, otherwise the first touch that has it |
| TouchList.FirstIndexSnoc | feeler.js:91-101 | a new identifier appended at the end does not move the first position of another |
| Feeler.GetTouch | feeler.js:103-107 | no touch exactly when untracked, otherwise the first touch with the identifier |
| Feeler.StartOne | feeler.js:40-49 | a start is dispatched with the list as it was; the touch is appended exactly when not rejected |
| Feeler.StartedTouchIsAtRest | feeler.js:21-27 | a new touch has `pos = origin = last`, at the event position |
| Feeler.TouchStart | feeler.js:37-51 | touchstart keeps every tracked touch and adds at most one per changed touch |
| Feeler.EndOne | feeler.js:56-64 | an untracked identifier changes nothing; a tracked one dispatches 'end' with the touch still listed, then removes exactly that touch |
| Feeler.EndRemovesExactlyThatTouch | feeler.js:58-62 | the removed touch has the identifier and the list loses exactly it |
| Feeler.TouchEnd | feeler.js:53-66 | touchend only removes touches (the multiset shrinks), and changes nothing when no changed identifier is tracked |
| Feeler.EndOneLifts | feeler.js:58-62 | one ended touch changes the list by lifting its identifier only, whatever the listener |
| Feeler.LiftKeepsOthers | feeler.js:58-62 | lifting an identifier keeps every touch with another identifier |
| Feeler.TouchEndKeepsOthers | feeler.js:53-66 | a touch whose identifier did not end survives touchend |
| Feeler.Unended | feeler.js:53-66 | reference for touchend: the touches whose identifier did not end, in order |
| Feeler.UnendedNone | feeler.js:53-66 | when nothing ended, the reference keeps every touch |
| Feeler.LiftSnoc | feeler.js:58-62 | lifting an identifier from a list grown by a touch with another identifier lifts it from the old list and keeps the new touch last |
| Feeler.LiftUnended | feeler.js:58-62 | lifting one more identifier from the reference is the reference with that identifier added to the ended ones |
| Feeler.TouchEndKeepsUnended | feeler.js:53-66 | with distinct identifiers, touchend leaves exactly the touches whose identifier did not end, in their order |
| Feeler.Shift | feeler.js:70-73 | every touch's `last` becomes its `pos` |
| Feeler.MovePos | feeler.js:74-81 | a move keeps the identifiers |
| Feeler.MoveAll | feeler.js:74-81 | identifiers, origins and `last` stay; a touch no changed entry names keeps its position; the first touch of an identifier ends at the last position reported for it |
| Feeler.TouchMove | feeler.js:68-84 | `last` becomes the old `pos` for every touch, positions update only for changed identifiers, a touch that is not the first with its identifier keeps its position, and 'move' sees the updated list |
| Feeler.Disable | feeler.js:114-120 | every start is rejected, and no listener changes the state |
| Feeler.RejectedStartsAddNothing | feeler.js:114-120 | starts a listener rejects add no touch |
| Feeler.DisabledStaysEmpty | feeler.js:114-120 | a disabled element never tracks a touch, whatever events arrive |
| Feeler.Tap | feeler.js:123-157 | a start is rejected exactly when another touch is live and arms exactly when none is; an end runs the callback exactly when armed; a move disarms |
| Feeler.TapStart | feeler.js:137-148 | a start on an idle element is tracked and arms the tap; a start while a touch is live is rejected and disarms it |
| Feeler.TapEnd | feeler.js:149-155 | a lift runs the callback exactly when the lifted touch is tracked and the tap is armed |
| Feeler.TapMove | feeler.js:156 | any move disarms the tap |
| Feeler.TapStartsKeepOne | feeler.js:137-148 | starts never grow the tap's touch list past one |
| Feeler.TapTracksAtMostOne | feeler.js:123-157 | the tap recogniser tracks at most one touch after any event sequence |
| Feeler.RunSnoc | feeler.js:37-84 | events are handled one after another |
| Feeler.TapFires | feeler.js:135-156 | press and lift on an idle element runs the callback once |
| Feeler.TapMoveRun | feeler.js:156 | after a move the tap is disarmed and the callback count unchanged |
| Feeler.DragDoesNotFire | feeler.js:149-156 | a move followed by a lift does not run the callback |
| Feeler.SecondFingerCancels | feeler.js:137-155 | a second finger disarms the tap: lifting either finger does not run the callback |
| Client.AddImage | client.js:64-72 | the thumbnail is appended, styled as a row end exactly when the new child count is a multiple of the pitch, and the page stays consistent |
| Client.Layout | client.js:147-162 | pitch, size and end width follow the body width; nothing is restyled unless one of them changed, and then every thumbnail is restyled consistently |
| Client.LayoutThenAdd | client.js:147-183 | laying out and then adding thumbnails gives a consistent page whose full rows span the body width |
| Client.AddAllConsistent | client.js:64-72 | adding thumbnails one by one keeps a consistent page consistent |
| Client.EndOfRow | client.js:70 | in a consistent page the thumbnail at 1-based position `k` has end styling exactly when `k mod pitch = 0` |
| Client.RemoveTouch | client.js:222-229 | an untracked identifier changes nothing; a tracked one removes the first touch with it, the others keeping their order |
| Client.RemoveTouchKeepsOthers | client.js:222-229 | a touch with another identifier survives `removeTouch` |
| Client.RemoveTouchSnoc | client.js:222-229 | removing an identifier from a list grown by a touch with another identifier removes it from the old list and keeps the new touch last |
| Client.RemoveTouchForgets | client.js:222-229 | with distinct identifiers the removed identifier is gone and the rest stay distinct |
| Client.OnTouchStart | client.js:232-243 | the scroll target jumps to the scroll position only when no touch was tracked; every changed touch is appended in order |
| Client.SumYUpdate | client.js:256 | updating one touch's `pageY` changes the sum by the difference |
| Client.MoveOne | client.js:247-258 | the first touch with the identifier takes the reported `pageY` and the scroll target falls by the difference; an unknown identifier is skipped |
| Client.OnTouchMove | client.js:245-259 | identifiers stay; the first touch of each identifier ends at the last `pageY` reported for it; every other touch is unchanged |
| Client.MoveConserves | client.js:245-259 | the scroll target plus the tracked `pageY`s is unchanged, so with `OnTouchMove` the target falls by exactly the tracked touches' total vertical motion |
| Client.OneFingerScrolls | client.js:247-258 | with one finger down the scroll target falls by the distance from its tracked `pageY` to the last one reported |
| Client.UnknownMovesSkipped | client.js:250-253 | changed touches that are not tracked change nothing |
| Client.OnTouchEnd | client.js:261-267 | touchend removes touches only and leaves the scroll target alone; when no ended identifier is tracked the state is unchanged |
| Client.OnTouchEndKeepsOthers | client.js:261-267 | a touch whose identifier did not end survives touchend |
| Client.Untouched | client.js:261-267 | reference for touchend: the touches whose identifier did not end, in order |
| Client.OnTouchEndKeepsUntouched | client.js:261-267 | with distinct identifiers, touchend leaves exactly the touches whose identifier did not end, in their order |
| Client.UntouchedNone | client.js:261-267 | when nothing ended, the reference keeps every touch |
| Client.RemoveUntouched | client.js:222-229 | removing one more identifier from the reference is the reference with that identifier added to the ended ones |
| Client.LiftAll | client.js:261-267 | lifting the only tracked finger empties the list |

## Left out

- File and network I/O: multer storage, `fs` reads, writes, renames and unlinks, `fetch` in the browser scripts, and the deletion requests sent after a removal.
- `sharp` resizing and `heic-convert`: foreign libraries. Their failures are not modelled, and the thumbnail key is a parameter.
- `rand.intBetween`: `makeKey`'s four draws are parameters.
- Concurrency: the upload handler reads, appends to and rewrites the gallery document without any guard. Two concurrent uploads can lose an entry, and the model has no interleaving.
- Concurrency: `createGallery` assigns the parsed admin document to the undeclared `adminJson` (api.js:115), an implicit global, and reads it back in a later callback (api.js:126-127). Two concurrent requests from different admins can push one admin's new gallery key into the other admin's document and write that to the first admin's path. Api.CreateGallery models one request at a time.
- Api.CreateGallery: a request body that is not JSON, or an admin document without `galleries`, throws outside the handler's `try`. The model covers only the outcomes listed in its contract.
- Api.Upload: the `else` branch after the type dispatch is unreachable, because `getFileType` throws for an unknown type. The catch then answers with a file error, which is the model's error.
- Api.Upload: a parsed file in `galleries/` is either a gallery document or a write-access document `{galleryKey}`; any other JSON shape (a hand-edited file) is not modelled.
- Api.Stem: `path.parse` is modelled for names without directories. Of the names made only of dots, ".." differs: Node gives "..", the model ".". Stored upload names are never like that.
- DateView: dates are integers. `Date.parse` can produce NaN, which breaks the sort and the binary search; that is not modelled.
- DateView.SortByDate: it states sortedness and permutation only. Stability of the browser's sort is not stated.
- The 'remove' event dispatched before a removal, and every listener other than the ones modelled here.
- Grid, Thumbs and Client: pixel sizes are natural numbers. jQuery can report fractional widths; that is not modelled.
- Thumbs.Resize requires a positive container width. With width 0 the size is 0 and `Math.ceil(height / 0)` is not finite; Thumbs.ResizeChecked is the total version, see Findings.
- Thumbs: scrolling, `virtualRow` updates, `updateYears` placement and the timeline (floating-point DOM measurements) are not modelled. The year table takes the years of the view's dates as input.
- Viewer: element creation, video playback, fades, zoom, pan and the mouse, wheel and touch handlers are not modelled.
- Viewer: the gallery change listener in `image.js` is not modelled. It indexes `gallery.view[i]` where `[index]` is meant, so it does not maintain the window binding.
- Feeler: the click handler `tap` installs runs the callback on every click; DOM clicks are not modelled.
- Feeler: touch coordinates are reals, not doubles; `preventDefault` and the console logging are not modelled. `touchcancel` is not handled by the source and not modelled.
- Client: the scroll-target arithmetic is exact real arithmetic. With doubles, rounding can break the conservation stated by Client.MoveConserves.
- Client: the fades, the scroll animation, uploads from the page and the mouse handlers are not modelled.
- `point.js`, `scroll.js`, `fade.js` and `heic2jpg.js` are not part of this model.

## Findings

| source | as written | input that shows it | evidently intended | confidence | as-written member | corrected member |
|---|---|---|---|---|---|---|
| album.js:84-88, gallery.js:83-87 | `remove(index)` looks up `view[index]` and splices `objects` at its `indexOf` before anything reads the entry. For an index outside the view, `indexOf` is -1 and `splice(-1, 1)` drops the last object; then the request at line 88 throws. At or past the end, the view splice does nothing. For a negative index the view splice counts from the end, so `remove(-1)` also drops the last view entry, and an index below `-length` drops the first. | a non-empty album and `remove(view.length)` | an index outside the view changes neither list | not executed; low, since the callers in this repository pass an index inside the view | DateView.RemoveAsWritten (DateView.RemovePastEndDropsLastObject) | DateView.Remove |
| thumbs.js:153-196 | when only the row count changes, `resize` appends `<img>` slots but styles them only when columns, size or end width changed | a 1000 x 100 container resized to 1000 x 500: rows go from 2 to 4, slots 10..19 get no width, height or class | every slot carries the current size whenever the grid is rebuilt | not executed; medium | Thumbs.ResizeAsWritten (Thumbs.TallerWindowLeavesSlotsUnstyled) | Thumbs.Resize |
| thumbs.js:147-179 | with a container 0 px wide the size is 0, `rows` is `Math.ceil(height / 0) + 1`, which is `Infinity` for a positive height, and the append loop `for (i = numThumbs; i < cols * rows; i++)` never ends | a container 0 px wide and 100 px high | a zero-width container leaves the grid as it is | not executed; low, since a hidden container usually has height 0 too, and then `rows` is `NaN` and the loop runs no iteration | Thumbs.SlotTargetAsWritten | Thumbs.ResizeChecked |

=== FILE: album.dfy ===
/** The client's album object (album.js): the date-sorted collection plus the
    key it was loaded from. A key may name a collection document instead of
    an album; the collection's `main` album is then loaded and the collection
    key is kept, since deletions go through it. */
module Album {
  import opened Common
  import opened Seqs
  import opened DateView

  /** A document `albums/<key>.json`. `main` is the main album's key of a
      collection document and empty for an album document (an absent or
      empty field is false in album.js's test). */
  datatype Doc = Doc(name: string, objects: seq<Item>, main: string)

  datatype AlbumState = AlbumState(key: string, collectionKey: Option<string>, name: string, coll: Collection)

  /** The outcome of `load`: the new state and the change reported, or the
      state reached when a fetch found no document under `missing`. */
  datatype Loaded =
    | Loaded(state: AlbumState, change: Change)
    | LoadFailed(state: AlbumState, missing: string)

  /** `loadAlbum`: take the album's name and objects, sort the view. */
  function LoadAlbum(a: AlbumState, doc: Doc): (r: Loaded)
    ensures r.Loaded? && r.state.key == a.key && r.state.collectionKey == a.collectionKey
    ensures r.state.name == doc.name && r.state.coll.objects == doc.objects && Valid(r.state.coll)
    ensures r.change == Change(0, |doc.objects| - 1)
  {
    var loaded := DateView.Load(doc.objects);
    Loaded(a.(name := doc.name, coll := loaded.0), loaded.1)
  }

  /** `load(key)`, with `store` standing for the documents the server holds. */
  function Load(a: AlbumState, key: string, store: map<string, Doc>): (r: Loaded)
    ensures key !in store ==> r == LoadFailed(a.(key := key), key)
    ensures key in store && store[key].main == "" ==>
      r.Loaded? && r.state.key == key && r.state.collectionKey == a.collectionKey
      && r.state.coll.objects == store[key].objects
    ensures key in store && store[key].main != "" ==>
      r.state.collectionKey == Some(key) && r.state.key == store[key].main
      && (store[key].main in store <==> r.Loaded?)
      && (r.Loaded? ==> r.state.coll.objects == store[store[key].main].objects)
    ensures r.Loaded? ==> Valid(r.state.coll) && r.change == Change(0, |r.state.coll.view| - 1)
  {
    var a := a.(key := key);
    if key !in store then LoadFailed(a, key)
    else
      var doc := store[key];
      if doc.main != "" then
        var a := a.(collectionKey := Some(key), key := doc.main);
        if doc.main !in store then LoadFailed(a, doc.main) else LoadAlbum(a, store[doc.main])
      else LoadAlbum(a, doc)
  }

  /** `add(object)` on a loaded album. */
  method Add(a: AlbumState, x: Item) returns (r: AlbumState, change: Change)
    requires Sorted(a.coll.view)
    ensures r.key == a.key && r.collectionKey == a.collectionKey && r.name == a.name
    ensures r.coll.objects == a.coll.objects + [x] && Sorted(r.coll.view)
    ensures Valid(a.coll) ==> Valid(r.coll)
    ensures 0 <= change.minIndex < |r.coll.view| && r.coll.view[change.minIndex] == x
    ensures forall k :: 0 <= k < change.minIndex ==> r.coll.view[k].date < x.date
    ensures forall k :: change.minIndex < k < |r.coll.view| ==> x.date <= r.coll.view[k].date
    ensures change.maxIndex == |r.coll.view| - 1 == |a.coll.view|
    ensures r.coll.view == a.coll.view[..change.minIndex] + [x] + a.coll.view[change.minIndex..]
  {
    var coll;
    coll, change := DateView.Add(a.coll, x);
    r := a.(coll := coll);
  }

  /** `remove(index)` on a loaded album, or nothing for an index its view
      does not hold. */
  function Remove(a: AlbumState, i: int): (r: Option<(AlbumState, Change)>)
    ensures r.None? <==> !(0 <= i < |a.coll.view|)
    ensures r.Some? ==>
      && r.value.0.key == a.key && r.value.0.name == a.name && r.value.0.collectionKey == a.collectionKey
      && r.value.0.coll.view == a.coll.view[..i] + a.coll.view[i + 1..]
      && r.value.1 == Change(i, |r.value.0.coll.view|)
    ensures r.Some? && a.coll.view[i] in a.coll.objects ==>
      r.value.0.coll.objects == RemoveAt(a.coll.objects, IndexOf(a.coll.objects, a.coll.view[i]))
    ensures r.Some? && Valid(a.coll) ==>
      && Valid(r.value.0.coll)
      && multiset(r.value.0.coll.objects) == multiset(a.coll.objects) - multiset{a.coll.view[i]}
  {
    match DateView.Remove(a.coll, i)
    case None => None
    case Some(res) => Some((a.(coll := res.0), res.1))
  }
}

=== FILE: api.dfy ===
/** The server's decisions (api.js): which name an uploaded picture is stored
    under, what the gallery entry records, and how gallery creation changes
    the admin document. File system calls, the HEIC converter and the
    thumbnail resizer are left out; their results are inputs. */
module Api {
  import opened Common
  import opened FileType
  import Keys

  /** One picture of a gallery document. */
  datatype Entry = Entry(title: string, file: string, thumb: string, original: string)

  /** A gallery document `galleries/<key>.json`. */
  datatype GalleryDoc = GalleryDoc(name: string, images: seq<Entry>)

  /** What a parsed file in `galleries/` holds: a gallery document, or a
      write-access document `{galleryKey}` naming the gallery it may change
      (gallery.js reads both from the same directory). A write-access
      document has no `images`. */
  datatype StoredGallery = GalleryFile(doc: GalleryDoc) | WriteAccessFile(galleryKey: string)

  /** An admin document `admin/<key>.json`. */
  datatype AdminDoc = AdminDoc(docType: string, galleries: seq<string>)

  /** multer's record of an upload: the client's file name, the name it was
      saved under in `originals/`, and its bytes. */
  datatype UploadedFile = UploadedFile(originalname: string, filename: string, bytes: seq<Byte>)

  datatype UploadError =
    /** The gallery document could not be read or parsed. */
    | GalleryReadError
    /** The request carried no `image` file: reading its name throws before
        the handler's `try`, and no response is ever sent. */
    | NoFile
    /** The upload's type could not be determined. */
    | FileError(cause: SniffError)
    /** The upload was addressed to a write-access document: the picture and
        its thumbnail are stored under the names of `stored`, then pushing
        onto the missing `images` throws outside any `try`, and no response
        is sent and no document is written. */
    | ImagesMissing(stored: Entry)

  const JpgExtension: string := ".jpg"

  /** Position of the last '.', or -1. */
  function LastDot(s: string): (r: int)
    ensures -1 <= r < |s|
    ensures r == -1 <==> '.' !in s
    ensures 0 <= r ==> s[r] == '.' && '.' !in s[r + 1..]
  {
    if |s| == 0 then -1
    else if s[|s| - 1] == '.' then |s| - 1
    else
      var r := LastDot(s[..|s| - 1]);
      assert 0 <= r ==> s[r + 1..] == s[..|s| - 1][r + 1..] + [s[|s| - 1]];
      r
  }

  /** `path.parse(name).name` for a name without directories: everything
      before the last '.', unless that '.' is the first character. */
  function Stem(name: string): (r: string)
    ensures |r| <= |name| && r == name[..|r|]
    ensures |r| < |name| ==> 0 < |r| && name[|r|] == '.' && '.' !in name[|r| + 1..]
    ensures |r| == |name| ==> '.' !in name || LastDot(name) == 0
  {
    var d := LastDot(name);
    if d > 0 then name[..d] else name
  }

  /** multer saves an upload as a fresh key, '.', and the client's extension
      without its dot; the stem of that name is the key. */
  lemma StemOfStoredUpload(key: string, ext: string)
    requires Keys.IsKey(key) && '.' !in ext
    ensures Stem(key + "." + ext) == key
  {
    Keys.KeyHasNoDot(key);
    var s := key + "." + ext;
    assert s[|key|] == '.';
    assert s[|key| + 1..] == ext;
    assert s[..|key|] == key;
  }

  /** The stored name and the retained original of an upload of the given
      kind: a JPEG is moved under its own stem with a ".jpg" extension and
      keeps no separate original; a HEIC is converted into a file named by a
      fresh key and its upload is kept as the original. */
  function StoredNames(kind: Kind, filename: string, heicKey: string): (r: (string, string))
    ensures |r.0| >= |JpgExtension| && r.0[|r.0| - |JpgExtension|..] == JpgExtension
    ensures kind == Jpeg ==> r.0[..|r.0| - |JpgExtension|] == Stem(filename) && r.1 == ""
    ensures kind == Heic ==> r.0[..|r.0| - |JpgExtension|] == heicKey && r.1 == filename
  {
    match kind
    case Jpeg => (Stem(filename) + JpgExtension, "")
    case Heic => (heicKey + JpgExtension, filename)
  }

  /** `e` is the entry recorded for `file`: titled with the client's name,
      with a fresh thumbnail, and stored as the JPEG's own stem or as a fresh
      key for a converted HEIC. */
  predicate Describes(e: Entry, file: UploadedFile, heicKey: string, thumbKey: string) {
    && e.title == file.originalname
    && e.thumb == thumbKey + JpgExtension
    && (IsJpeg(file.bytes) ==> e.file == Stem(file.filename) + JpgExtension && e.original == "")
    && (!IsJpeg(file.bytes) ==> e.file == heicKey + JpgExtension && e.original == file.filename)
  }

  /** The `/api/upload` handler: read the gallery, classify the upload,
      choose the stored names, append the new entry. `gallery` is the parsed
      file the key names; `upload` is multer's `req.file`, absent when the
      form had no `image` field; `heicKey` and `thumbKey` are the keys
      `makeKey` would draw for the converted file and the thumbnail. */
  function Upload(gallery: Option<StoredGallery>, upload: Option<UploadedFile>, heicKey: string, thumbKey: string): (r: Result<(GalleryDoc, Entry), UploadError>)
    ensures gallery.None? ==> r == Err(GalleryReadError)
    ensures gallery.Some? && upload.None? ==> r == Err(NoFile)
    ensures gallery.Some? && upload.Some? ==>
      (r.Ok? <==> gallery.value.GalleryFile? && (IsJpeg(upload.value.bytes) || IsHeic(upload.value.bytes)))
    ensures gallery.Some? && upload.Some? && gallery.value.WriteAccessFile? ==>
      (r.Err? && r.error.ImagesMissing? <==> IsJpeg(upload.value.bytes) || IsHeic(upload.value.bytes))
    ensures r.Ok? ==>
      && r.value.0.name == gallery.value.doc.name
      && r.value.0.images == gallery.value.doc.images + [r.value.1]
      && Describes(r.value.1, upload.value, heicKey, thumbKey)
    ensures r.Err? && r.error.ImagesMissing? ==>
      gallery.value.WriteAccessFile? && Describes(r.error.stored, upload.value, heicKey, thumbKey)
  {
    match (gallery, upload)
    case (None, _) => Err(GalleryReadError)
    case (Some(_), None) => Err(NoFile)
    case (Some(g), Some(file)) =>
      GetFileTypeSpec(file.bytes, file.filename);
      match GetFileType(file.bytes, file.filename)
      case Err(e) => Err(FileError(e))
      case Ok(kind) =>
        var names := StoredNames(kind, file.filename, heicKey);
        var entry := Entry(file.originalname, names.0, thumbKey + JpgExtension, names.1);
        match g
        case GalleryFile(doc) => Ok((GalleryDoc(doc.name, doc.images + [entry]), entry))
        case WriteAccessFile(_) => Err(ImagesMissing(entry))
  }

  /** An upload addressed by a write-access key stores the same files the
      same upload addressed by the gallery's own key would, but leaves the
      gallery without the entry. */
  lemma WriteKeyUploadIsLost(doc: GalleryDoc, galleryKey: string, file: UploadedFile, heicKey: string, thumbKey: string)
    requires IsJpeg(file.bytes) || IsHeic(file.bytes)
    ensures Upload(Some(GalleryFile(doc)), Some(file), heicKey, thumbKey).Ok?
    ensures Upload(Some(WriteAccessFile(galleryKey)), Some(file), heicKey, thumbKey)
      == Err(ImagesMissing(Upload(Some(GalleryFile(doc)), Some(file), heicKey, thumbKey).value.1))
  {
  }

  /** A JPEG saved by multer as "key.ext" ends up in `images/` as "key.jpg". */
  lemma JpegKeepsUploadKey(gallery: GalleryDoc, key: string, ext: string, originalname: string, bytes: seq<Byte>, heicKey: string, thumbKey: string)
    requires Keys.IsKey(key) && '.' !in ext && IsJpeg(bytes)
    ensures Upload(Some(GalleryFile(gallery)), Some(UploadedFile(originalname, key + "." + ext, bytes)), heicKey, thumbKey).Ok?
    ensures Upload(Some(GalleryFile(gallery)), Some(UploadedFile(originalname, key + "." + ext, bytes)), heicKey, thumbKey).value.1.file
      == key + JpgExtension
  {
    StemOfStoredUpload(key, ext);
  }

  /** Successive uploads to one gallery, each applied to the result of the
      previous one; a failed upload leaves the gallery as it was. */
  function UploadAll(gallery: GalleryDoc, uploads: seq<(UploadedFile, string, string)>): GalleryDoc
    decreases |uploads|
  {
    if |uploads| == 0 then gallery
    else
      var u := uploads[|uploads| - 1];
      var before := UploadAll(gallery, uploads[..|uploads| - 1]);
      match Upload(Some(GalleryFile(before)), Some(u.0), u.1, u.2)
      case Ok(res) => res.0
      case Err(_) => before
  }

  /** Number of uploads whose bytes carry a known signature. */
  function Recognised(uploads: seq<(UploadedFile, string, string)>): nat {
    if |uploads| == 0 then 0
    else
      var u := uploads[|uploads| - 1];
      Recognised(uploads[..|uploads| - 1]) + if IsJpeg(u.0.bytes) || IsHeic(u.0.bytes) then 1 else 0
  }

  /** Uploads only append: the earlier entries stay in place, and the gallery
      grows by exactly one entry per recognised upload. */
  lemma {:induction false} UploadsOnlyAppend(gallery: GalleryDoc, uploads: seq<(UploadedFile, string, string)>)
    ensures UploadAll(gallery, uploads).name == gallery.name
    ensures |UploadAll(gallery, uploads).images| == |gallery.images| + Recognised(uploads)
    ensures UploadAll(gallery, uploads).images[..|gallery.images|] == gallery.images
  {
    if |uploads| > 0 {
      var prefix := uploads[..|uploads| - 1];
      UploadsOnlyAppend(gallery, prefix);
      var before := UploadAll(gallery, prefix);
      var u := uploads[|uploads| - 1];
      var r := Upload(Some(GalleryFile(before)), Some(u.0), u.1, u.2);
      if r.Ok? {
        assert r.value.0.images[..|gallery.images|] == before.images[..|gallery.images|];
      }
    }
  }

  datatype CreateOutcome =
    /** The gallery document and the updated admin document are written and
        the new key is sent back. */
    | Created(galleryKey: string, gallery: GalleryDoc, admin: AdminDoc)
    /** The admin document could not be read or parsed: an error response. */
    | Failed
    /** The request is dropped without a response: it was not JSON, or the
        key does not name an admin document. */
    | NoResponse

  /** The `/api/createGallery` handler, with `galleryKey` the key `makeKey`
      draws and `admin` the parsed admin document (None when it could not be
      read or parsed). */
  function CreateGallery(isJson: bool, admin: Option<AdminDoc>, name: string, galleryKey: string): (r: CreateOutcome)
    ensures r.Created? <==> isJson && admin.Some? && admin.value.docType == "admin"
    ensures r.Failed? <==> isJson && admin.None?
    ensures r.Created? ==>
      && r.galleryKey == galleryKey
      && r.gallery.name == name && r.gallery.images == []
      && r.admin.docType == admin.value.docType
      && r.admin.galleries == admin.value.galleries + [galleryKey]
  {
    if !isJson then NoResponse
    else match admin
      case None => Failed
      case Some(a) =>
        if a.docType == "admin" then Created(galleryKey, GalleryDoc(name, []), a.(galleries := a.galleries + [galleryKey]))
        else NoResponse
  }

  /** A gallery just created holds exactly the entry of a first recognised
      upload. */
  lemma FirstUploadIntoNewGallery(admin: AdminDoc, name: string, galleryKey: string, file: UploadedFile, heicKey: string, thumbKey: string)
    requires admin.docType == "admin" && (IsJpeg(file.bytes) || IsHeic(file.bytes))
    ensures
      var created := CreateGallery(true, Some(admin), name, galleryKey);
      var r := Upload(Some(GalleryFile(created.gallery)), Some(file), heicKey, thumbKey);
      r.Ok? && r.value.0.images == [r.value.1]
  {
  }
}

=== FILE: client.dfy ===
/** The upload page (client.js): a flat list of thumbnail elements laid out
    in rows of `pitch`, and the touch bookkeeping that scrolls it. */
module Client {
  import opened Seqs
  import opened TouchList
  import opened Grid

  /** `thumbPitch`, `thumbSize`, `thumbSizeEnd` and the styles of the
      `#thumbs` children in document order. */
  datatype Page = Page(pitch: nat, size: int, sizeEnd: int, thumbs: seq<Style>)

  /** The page before the first `layout`. */
  const Initial: Page := Page(0, 0, 0, [])

  /** `styleImage(element, isEnd)`. */
  function ThumbStyle(p: Page, isEnd: bool): Style {
    if isEnd then ThumbEnd(p.sizeEnd, p.size) else Thumb(p.size, p.size)
  }

  /** Every thumbnail is styled for the current layout, the end styling on
      each 1-based position that is a multiple of the pitch. */
  predicate Consistent(p: Page) {
    forall k :: 0 <= k < |p.thumbs| ==> p.thumbs[k] == ThumbStyle(p, IsEnd(k + 1, p.pitch))
  }

  /** `addImage`: append a thumbnail, styled as a row end when the new child
      count is a multiple of the pitch. */
  function AddImage(p: Page): (r: Page)
    ensures r.pitch == p.pitch && r.size == p.size && r.sizeEnd == p.sizeEnd
    ensures |r.thumbs| == |p.thumbs| + 1 && r.thumbs[..|p.thumbs|] == p.thumbs
    ensures Consistent(p) ==> Consistent(r)
  {
    p.(thumbs := p.thumbs + [ThumbStyle(p, IsEnd(|p.thumbs| + 1, p.pitch))])
  }

  /** `layout`: recompute pitch, size and end width for the body width, and
      restyle every thumbnail only when one of them changed. */
  function Layout(p: Page, width: nat): (r: Page)
    ensures r.pitch == ColumnsFor(width).count && r.size == ColumnsFor(width).size
    ensures r.sizeEnd == ColumnsFor(width).endSize
    ensures |r.thumbs| == |p.thumbs|
    ensures r.pitch == p.pitch && r.size == p.size && r.sizeEnd == p.sizeEnd ==> r == p
    ensures r.pitch != p.pitch || r.size != p.size || r.sizeEnd != p.sizeEnd ==> Consistent(r)
    ensures Consistent(p) ==> Consistent(r)
  {
    var c := ColumnsFor(width);
    if c.count != p.pitch || c.size != p.size || c.endSize != p.sizeEnd then
      var q := Page(c.count, c.size, c.endSize, p.thumbs);
      q.(thumbs := seq(|p.thumbs|, k requires 0 <= k < |p.thumbs| => ThumbStyle(q, IsEnd(k + 1, q.pitch))))
    else p
  }

  /** Loading the page lays it out and then adds the gallery's thumbnails:
      the page stays consistent, and the styled widths of each full row add
      up to the body width. */
  lemma LayoutThenAdd(width: nat, n: nat)
    ensures Consistent(AddAll(Layout(Initial, width), n))
    ensures RowSpan(ColumnsFor(width), AddAll(Layout(Initial, width), n).pitch) == width
  {
    AddAllConsistent(Layout(Initial, width), n);
    RowFillsWidth(width);
  }

  function AddAll(p: Page, n: nat): Page {
    if n == 0 then p else AddImage(AddAll(p, n - 1))
  }

  lemma {:induction false} AddAllConsistent(p: Page, n: nat)
    requires Consistent(p)
    ensures Consistent(AddAll(p, n)) && AddAll(p, n).pitch == p.pitch
  {
    if n > 0 {
      AddAllConsistent(p, n - 1);
    }
  }

  /** In a consistent page with a pitch, exactly the positions that close a
      row carry the end styling. */
  lemma EndOfRow(p: Page, k: nat)
    requires Consistent(p) && p.pitch >= 1 && k < |p.thumbs|
    ensures p.thumbs[k].ThumbEnd? <==> (k + 1) % p.pitch == 0
  {
  }

  /** A tracked touch: its identifier and last seen `pageY`. */
  datatype ClientTouch = ClientTouch(pageY: real, identifier: int)

  /** An entry of a DOM event's `changedTouches`. */
  datatype PageTouch = PageTouch(identifier: int, pageY: real)

  /** The scrolling state the touch handlers share: `touches`,
      `scrollTarget` and `scrollTouch`. */
  datatype Scroller = Scroller(touches: seq<ClientTouch>, scrollTarget: real, scrollTouch: bool)

  /** The identifiers of the touch list, position by position. */
  function Ids(touches: seq<ClientTouch>): seq<int> {
    seq(|touches|, k requires 0 <= k < |touches| => touches[k].identifier)
  }

  predicate Tracked(touches: seq<ClientTouch>, id: int) {
    id in Ids(touches)
  }

  /** `getTouchIndex`: the first touch with the identifier, or -1. */
  function GetTouchIndex(touches: seq<ClientTouch>, id: int): int {
    FirstIndex(Ids(touches), id)
  }

  /** `removeTouch`: drop the first touch with the identifier, if any. */
  function RemoveTouch(touches: seq<ClientTouch>, id: int): (r: seq<ClientTouch>)
    ensures !Tracked(touches, id) ==> r == touches
    ensures Tracked(touches, id) ==> r == RemoveAt(touches, GetTouchIndex(touches, id))
    ensures Tracked(touches, id) ==>
      |r| == |touches| - 1 &&
      multiset(r) + multiset{touches[GetTouchIndex(touches, id)]} == multiset(touches)
  {
    var i := GetTouchIndex(touches, id);
    if i >= 0 then
      RemoveAtMultiset(touches, i);
      RemoveAt(touches, i)
    else touches
  }

  /** With distinct identifiers, removing a touch leaves no touch with that
      identifier and keeps the identifiers distinct. */
  lemma RemoveTouchForgets(touches: seq<ClientTouch>, id: int)
    requires forall j, k :: 0 <= j < k < |touches| ==> touches[j].identifier != touches[k].identifier
    ensures !Tracked(RemoveTouch(touches, id), id)
    ensures var r := RemoveTouch(touches, id);
      forall j, k :: 0 <= j < k < |r| ==> r[j].identifier != r[k].identifier
  {
    var i := GetTouchIndex(touches, id);
    if i >= 0 {
      var r := RemoveAt(touches, i);
      forall k | 0 <= k < |r| ensures r[k].identifier != id {
        if k < i { assert r[k] == touches[k]; } else { assert r[k] == touches[k + 1]; }
      }
    }
  }

  /** `onTouchStart`: when nothing was tracked the scroll target jumps to
      the current scroll position; every changed touch is appended. */
  function OnTouchStart(s: Scroller, scroll: real, changed: seq<PageTouch>): (r: Scroller)
    ensures r.scrollTouch
    ensures r.scrollTarget == if |s.touches| == 0 then scroll else s.scrollTarget
    ensures |r.touches| == |s.touches| + |changed| && r.touches[..|s.touches|] == s.touches
    ensures forall j :: 0 <= j < |changed| ==>
      r.touches[|s.touches| + j] == ClientTouch(changed[j].pageY, changed[j].identifier)
  {
    var added := seq(|changed|, j requires 0 <= j < |changed| => ClientTouch(changed[j].pageY, changed[j].identifier));
    Scroller(s.touches + added, if |s.touches| == 0 then scroll else s.scrollTarget, true)
  }

  /** The sum of the tracked touches' `pageY`. */
  function SumY(touches: seq<ClientTouch>): real {
    if |touches| == 0 then 0.0 else SumY(touches[..|touches| - 1]) + touches[|touches| - 1].pageY
  }

  lemma {:induction false} SumYUpdate(touches: seq<ClientTouch>, i: nat, y: real)
    requires i < |touches|
    ensures SumY(touches[i := touches[i].(pageY := y)]) == SumY(touches) - touches[i].pageY + y
    decreases |touches|
  {
    var t := touches[i := touches[i].(pageY := y)];
    assert t[..|t| - 1] == if i == |touches| - 1 then touches[..|touches| - 1]
      else touches[..|touches| - 1][i := touches[i].(pageY := y)];
    if i < |touches| - 1 {
      SumYUpdate(touches[..|touches| - 1], i, y);
    }
  }

  /** One changed touch of a touchmove: a tracked touch scrolls the target
      by the opposite of its vertical motion and records its new `pageY`. */
  function MoveOne(s: Scroller, e: PageTouch): (r: Scroller)
    ensures Ids(r.touches) == Ids(s.touches) && r.scrollTouch == s.scrollTouch
    ensures !Tracked(s.touches, e.identifier) ==> r == s
    ensures Tracked(s.touches, e.identifier) ==>
      var i := GetTouchIndex(s.touches, e.identifier);
      && r.touches == s.touches[i := s.touches[i].(pageY := e.pageY)]
      && r.scrollTarget == s.scrollTarget - (e.pageY - s.touches[i].pageY)
    ensures r.scrollTarget + SumY(r.touches) == s.scrollTarget + SumY(s.touches)
  {
    var i := GetTouchIndex(s.touches, e.identifier);
    if i < 0 then s
    else
      var touch := s.touches[i];
      SumYUpdate(s.touches, i, e.pageY);
      s.(scrollTarget := s.scrollTarget - (e.pageY - touch.pageY), touches := s.touches[i := touch.(pageY := e.pageY)])
  }

  /** The `pageY` of the last changed touch with the identifier, or
      `default` when none has it. */
  function LastPageY(changed: seq<PageTouch>, id: int, default: real): real
    decreases |changed|
  {
    if |changed| == 0 then default
    else if changed[|changed| - 1].identifier == id then changed[|changed| - 1].pageY
    else LastPageY(changed[..|changed| - 1], id, default)
  }

  /** `onTouchMove` over every changed touch, in order. The first touch of
      each identifier ends at the last `pageY` reported for it; every other
      touch, and every touch no changed entry names, is left alone. */
  function OnTouchMove(s: Scroller, changed: seq<PageTouch>): (r: Scroller)
    ensures Ids(r.touches) == Ids(s.touches) && r.scrollTouch == s.scrollTouch
    ensures |r.touches| == |s.touches|
    ensures forall k :: 0 <= k < |r.touches| && GetTouchIndex(s.touches, s.touches[k].identifier) != k ==>
      r.touches[k] == s.touches[k]
    ensures forall k :: 0 <= k < |r.touches| && GetTouchIndex(s.touches, s.touches[k].identifier) == k ==>
      r.touches[k] == s.touches[k].(pageY := LastPageY(changed, s.touches[k].identifier, s.touches[k].pageY))
    decreases |changed|
  {
    if |changed| == 0 then s
    else
      var prev := OnTouchMove(s, changed[..|changed| - 1]);
      assert |Ids(prev.touches)| == |prev.touches|;
      MoveOne(prev, changed[|changed| - 1])
  }

  /** A touchmove conserves the scroll target plus the tracked touches'
      positions: the target moves by exactly the opposite of the tracked
      touches' total vertical motion. */
  lemma {:induction false} MoveConserves(s: Scroller, changed: seq<PageTouch>)
    ensures OnTouchMove(s, changed).scrollTarget + SumY(OnTouchMove(s, changed).touches) == s.scrollTarget + SumY(s.touches)
    decreases |changed|
  {
    if |changed| > 0 {
      MoveConserves(s, changed[..|changed| - 1]);
    }
  }

  /** With one finger down, a touchmove lowers the scroll target by how far
      the finger moved: from its tracked `pageY` to the last one reported. */
  lemma OneFingerScrolls(s: Scroller, changed: seq<PageTouch>)
    requires |s.touches| == 1
    ensures OnTouchMove(s, changed).scrollTarget ==
      s.scrollTarget - (LastPageY(changed, s.touches[0].identifier, s.touches[0].pageY) - s.touches[0].pageY)
  {
    var r := OnTouchMove(s, changed);
    MoveConserves(s, changed);
    assert Ids(s.touches)[0] == s.touches[0].identifier;
    assert GetTouchIndex(s.touches, s.touches[0].identifier) == 0;
    assert SumY(s.touches) == s.touches[0].pageY;
    assert SumY(r.touches) == r.touches[0].pageY;
  }

  /** Changed touches that are not tracked are skipped. */
  lemma {:induction false} UnknownMovesSkipped(s: Scroller, changed: seq<PageTouch>)
    requires forall j :: 0 <= j < |changed| ==> !Tracked(s.touches, changed[j].identifier)
    ensures OnTouchMove(s, changed) == s
    decreases |changed|
  {
    if |changed| > 0 {
      UnknownMovesSkipped(s, changed[..|changed| - 1]);
    }
  }

  /** The identifiers of a DOM event's changed touches, in order. */
  function ChangedIds(changed: seq<PageTouch>): (r: seq<int>)
    ensures |r| == |changed| && forall j :: 0 <= j < |r| ==> r[j] == changed[j].identifier
  {
    seq(|changed|, j requires 0 <= j < |changed| => changed[j].identifier)
  }

  lemma ChangedIdsSnoc(changed: seq<PageTouch>)
    requires |changed| > 0
    ensures ChangedIds(changed) == ChangedIds(changed[..|changed| - 1]) + [changed[|changed| - 1].identifier]
  {
  }

  /** `onTouchEnd`: remove each changed touch in order. */
  function OnTouchEnd(s: Scroller, changed: seq<PageTouch>): (r: Scroller)
    ensures r.scrollTarget == s.scrollTarget && r.scrollTouch == s.scrollTouch
    ensures |r.touches| <= |s.touches|
    ensures multiset(r.touches) <= multiset(s.touches)
    ensures (forall j :: 0 <= j < |changed| ==> !Tracked(s.touches, changed[j].identifier)) ==> r == s
    decreases |changed|
  {
    if |changed| == 0 then s
    else
      var init := changed[..|changed| - 1];
      var id := changed[|changed| - 1].identifier;
      var prev := OnTouchEnd(s, init);
      assert (forall j :: 0 <= j < |changed| ==> !Tracked(s.touches, changed[j].identifier)) ==>
        prev == s && !Tracked(prev.touches, id) by {
        if forall j :: 0 <= j < |changed| ==> !Tracked(s.touches, changed[j].identifier) {
          assert forall j :: 0 <= j < |init| ==> init[j] == changed[j];
        }
      }
      s.(touches := RemoveTouch(prev.touches, id))
  }

  /** A touch whose identifier no changed touch names is still tracked
      after the touchend. */
  lemma {:induction false} OnTouchEndKeepsOthers(s: Scroller, changed: seq<PageTouch>, t: ClientTouch)
    requires t in s.touches && t.identifier !in ChangedIds(changed)
    ensures t in OnTouchEnd(s, changed).touches
    decreases |changed|
  {
    if |changed| > 0 {
      var init := changed[..|changed| - 1];
      var id := changed[|changed| - 1].identifier;
      ChangedIdsSnoc(changed);
      OnTouchEndKeepsOthers(s, init, t);
      RemoveTouchKeepsOthers(OnTouchEnd(s, init).touches, id, t);
    }
  }

  /** Removing a touch keeps every touch with another identifier. */
  lemma RemoveTouchKeepsOthers(touches: seq<ClientTouch>, id: int, t: ClientTouch)
    requires t in touches && t.identifier != id
    ensures t in RemoveTouch(touches, id)
  {
    var i := GetTouchIndex(touches, id);
    if i >= 0 {
      var m :| 0 <= m < |touches| && touches[m] == t;
      assert Ids(touches)[i] == id;
      var r := RemoveAt(touches, i);
      if m < i { assert r[m] == t; } else { assert m > i && r[m - 1] == t; }
    }
  }

  predicate DistinctIds(touches: seq<ClientTouch>) {
    forall j, k :: 0 <= j < k < |touches| ==> touches[j].identifier != touches[k].identifier
  }

  /** Reference definition of a touchend: the touches whose identifier is not
      in `gone`, in their order. */
  function Untouched(touches: seq<ClientTouch>, gone: seq<int>): (r: seq<ClientTouch>)
    ensures forall k :: 0 <= k < |r| ==> r[k] in touches && r[k].identifier !in gone
  {
    if |touches| == 0 then []
    else
      var last := touches[|touches| - 1];
      Untouched(touches[..|touches| - 1], gone) + if last.identifier in gone then [] else [last]
  }

  /** A touch with another identifier appended after the list does not
      change which touch `removeTouch` takes out. */
  lemma RemoveTouchSnoc(u: seq<ClientTouch>, x: ClientTouch, id: int)
    requires x.identifier != id
    ensures RemoveTouch(u + [x], id) == RemoveTouch(u, id) + [x]
  {
    var v := u + [x];
    assert Ids(v) == Ids(u) + [x.identifier];
    FirstIndexSnoc(Ids(u), x.identifier, id);
    var i := GetTouchIndex(u, id);
    if i >= 0 {
      assert RemoveAt(v, i) == RemoveAt(u, i) + [x];
    }
  }

  /** With distinct identifiers, removing one more identifier from the
      untouched touches is the same as never having kept it. */
  lemma {:induction false} RemoveUntouched(t: seq<ClientTouch>, gone: seq<int>, id: int)
    requires DistinctIds(t)
    ensures RemoveTouch(Untouched(t, gone), id) == Untouched(t, gone + [id])
    decreases |t|
  {
    if |t| > 0 {
      var init := t[..|t| - 1];
      var x := t[|t| - 1];
      var u := Untouched(init, gone);
      var w := Untouched(init, gone + [id]);
      assert DistinctIds(init);
      RemoveUntouched(init, gone, id);
      assert RemoveTouch(u, id) == w;
      assert x.identifier in gone + [id] <==> x.identifier in gone || x.identifier == id;
      if x.identifier in gone {
        assert Untouched(t, gone) == u;
        assert Untouched(t, gone + [id]) == w;
      } else if x.identifier == id {
        assert Untouched(t, gone) == u + [x];
        assert Untouched(t, gone + [id]) == w;
        assert !Tracked(u, id) by {
          forall k | 0 <= k < |u| ensures Ids(u)[k] != id {
            assert u[k] in init;
          }
        }
        assert w == u;
        assert Ids(u + [x])[|u|] == id;
        assert GetTouchIndex(u + [x], id) == |u|;
        assert RemoveAt(u + [x], |u|) == u;
      } else {
        assert Untouched(t, gone) == u + [x];
        assert Untouched(t, gone + [id]) == w + [x];
        RemoveTouchSnoc(u, x, id);
      }
    }
  }

  /** With distinct identifiers a touchend leaves exactly the touches whose
      identifier no changed touch names, in their order. */
  lemma {:induction false} OnTouchEndKeepsUntouched(s: Scroller, changed: seq<PageTouch>)
    requires DistinctIds(s.touches)
    ensures OnTouchEnd(s, changed).touches == Untouched(s.touches, ChangedIds(changed))
    decreases |changed|
  {
    if |changed| == 0 {
      UntouchedNone(s.touches);
    } else {
      var init := changed[..|changed| - 1];
      var id := changed[|changed| - 1].identifier;
      OnTouchEndKeepsUntouched(s, init);
      assert OnTouchEnd(s, changed).touches == RemoveTouch(OnTouchEnd(s, init).touches, id);
      ChangedIdsSnoc(changed);
      RemoveUntouched(s.touches, ChangedIds(init), id);
    }
  }

  lemma {:induction false} UntouchedNone(t: seq<ClientTouch>)
    ensures Untouched(t, []) == t
    decreases |t|
  {
    if |t| > 0 {
      UntouchedNone(t[..|t| - 1]);
      assert t == t[..|t| - 1] + [t[|t| - 1]];
    }
  }

  /** Lifting every tracked finger empties the list. */
  lemma LiftAll(s: Scroller, e: PageTouch)
    requires s.touches == [ClientTouch(e.pageY, e.identifier)]
    ensures OnTouchEnd(s, [e]).touches == []
  {
    assert [e][..0] == [];
    assert s.touches[0].identifier == e.identifier;
  }
}

=== FILE: common.dfy ===
/** Failure-carrying wrappers used across the model: a missing value (the
    JavaScript `null`/`undefined`) and an operation that either yields a value
    or raises an error (a JavaScript `throw`, or an error response of api.js). */
module Common {

  datatype Option<+T> = None | Some(value: T)

  datatype Result<+T, +E> = Ok(value: T) | Err(error: E)
}

=== FILE: dateview.dfy ===
/** The client-side collection shared by albums (album.js) and galleries
    (gallery.js): the loaded objects in document order plus a `view` of the
    same objects kept sorted by date. Every operation reports the range of
    view positions it changed. */
module DateView {
  import opened Common
  import opened Seqs

  /** An album object or gallery image as far as the collection is
      concerned: `ref` stands for its identity (album.js and gallery.js compare objects by
      reference) and `date` for its capture time in milliseconds. */
  datatype Item = Item(ref: nat, date: int)

  /** The `change` event: view positions `minIndex` to `maxIndex` changed. */
  datatype Change = Change(minIndex: int, maxIndex: int)

  datatype Collection = Collection(objects: seq<Item>, view: seq<Item>)

  predicate Sorted(s: seq<Item>) {
    forall i, j :: 0 <= i < j < |s| ==> s[i].date <= s[j].date
  }

  /** The view is the objects in ascending date order. */
  predicate Valid(c: Collection) {
    Sorted(c.view) && multiset(c.view) == multiset(c.objects)
  }

  /** The binary search of `add`: the first view position whose date is not
      smaller than `date`. */
  method LowerBound(view: seq<Item>, date: int) returns (left: nat)
    requires Sorted(view)
    ensures left <= |view|
    ensures forall k :: 0 <= k < left ==> view[k].date < date
    ensures forall k :: left <= k < |view| ==> date <= view[k].date
  {
    var lo: int := 0;
    var hi: int := |view| - 1;
    while lo <= hi
      invariant 0 <= lo <= |view| && -1 <= hi < |view| && lo <= hi + 1
      invariant forall k :: 0 <= k < lo ==> view[k].date < date
      invariant forall k :: hi < k < |view| ==> date <= view[k].date
      decreases hi - lo
    {
      var mid := (lo + hi) / 2;
      if view[mid].date < date {
        lo := mid + 1;
      } else {
        hi := mid - 1;
      }
    }
    left := lo;
  }

  /** `add(object)`: append to the objects, splice into the view at the lower
      bound of its date, report positions from there to the end. */
  method Add(c: Collection, x: Item) returns (r: Collection, change: Change)
    requires Sorted(c.view)
    ensures r.objects == c.objects + [x]
    ensures |r.view| == |c.view| + 1
    ensures 0 <= change.minIndex < |r.view| && r.view[change.minIndex] == x
    ensures r.view == c.view[..change.minIndex] + [x] + c.view[change.minIndex..]
    ensures forall k :: 0 <= k < change.minIndex ==> r.view[k].date < x.date
    ensures forall k :: change.minIndex < k < |r.view| ==> x.date <= r.view[k].date
    ensures change.maxIndex == |r.view| - 1
    ensures Sorted(r.view)
    ensures Valid(c) ==> Valid(r)
  {
    var left := LowerBound(c.view, x.date);
    var view := c.view[..left] + [x] + c.view[left..];
    InsertAtBound(c.view, left, x);
    r := Collection(c.objects + [x], view);
    change := Change(left, |view| - 1);
  }

  /** Splicing an item in at the lower bound of its date keeps the view
      sorted and adds exactly that item. */
  lemma InsertAtBound(view: seq<Item>, left: nat, x: Item)
    requires Sorted(view) && left <= |view|
    requires forall k :: 0 <= k < left ==> view[k].date < x.date
    requires forall k :: left <= k < |view| ==> x.date <= view[k].date
    ensures var r := view[..left] + [x] + view[left..];
      && (forall k :: 0 <= k < left ==> r[k] == view[k])
      && (forall k :: left < k < |r| ==> r[k] == view[k - 1])
      && Sorted(r)
      && multiset(r) == multiset(view) + multiset{x}
  {
    var r := view[..left] + [x] + view[left..];
    assert forall k :: 0 <= k < left ==> r[k] == view[k];
    assert forall k :: left < k < |r| ==> r[k] == view[k - 1];
    forall i, j | 0 <= i < j < |r| ensures r[i].date <= r[j].date {
      if j < left {
        assert r[i] == view[i] && r[j] == view[j];
      } else if j == left {
        assert r[i] == view[i];
      } else if i == left {
        assert r[j] == view[j - 1];
      } else if i < left {
        assert r[i] == view[i] && r[j] == view[j - 1];
        assert view[i].date < x.date <= view[j - 1].date;
      } else {
        assert r[i] == view[i - 1] && r[j] == view[j - 1];
      }
    }
    assert view == view[..left] + view[left..];
  }

  /** `remove(index)` as written: `indexOf` of a missing object is -1 and
      `splice(-1, 1)` then drops the last object; the view is spliced at the
      raw index, which for a negative index counts from the end; the request that follows reads a field of the missing object
      and throws after the collection has changed. */
  datatype Removal = Removal(coll: Collection, change: Change, threw: bool)

  function RemoveAsWritten(c: Collection, i: int): (r: Removal)
    ensures 0 <= i < |c.view| ==> !r.threw && Remove(c, i) == Some((r.coll, r.change))
    ensures !(0 <= i < |c.view|) ==> r.threw
    ensures i >= |c.view| ==> r.coll.view == c.view
    ensures i < 0 && |c.view| > 0 ==>
      r.coll.view == RemoveAt(c.view, if |c.view| + i < 0 then 0 else |c.view| + i)
    ensures !(0 <= i < |c.view|) && |c.objects| > 0 ==> r.coll.objects == c.objects[..|c.objects| - 1]
  {
    var removed := if 0 <= i < |c.view| then Some(c.view[i]) else None;
    var at := match removed case Some(x) => IndexOf(c.objects, x) case None => -1;
    var view := Splice1(c.view, i);
    Removal(Collection(Splice1(c.objects, at), view), Change(i, |view|), removed.None?)
  }

  /** An index past the end of the view leaves the view alone but drops the
      last object, so the view is no longer a sorting of the objects. */
  lemma RemovePastEndDropsLastObject(c: Collection, i: int)
    requires Valid(c) && |c.objects| > 0 && i >= |c.view|
    ensures RemoveAsWritten(c, i).coll.view == c.view
    ensures RemoveAsWritten(c, i).coll.objects == c.objects[..|c.objects| - 1]
    ensures RemoveAsWritten(c, i).threw
    ensures !Valid(RemoveAsWritten(c, i).coll)
  {
    var r := RemoveAsWritten(c, i).coll;
    assert |multiset(c.view)| == |c.view| && |multiset(c.objects)| == |c.objects|;
    assert |multiset(r.objects)| == |c.objects| - 1;
  }

  /** `remove(index)` for an index the view holds: the entry leaves both the
      view and the objects, everything else keeps its order, and positions
      from `index` to the new length are reported. An index outside the view
      removes nothing. */
  function Remove(c: Collection, i: int): (r: Option<(Collection, Change)>)
    ensures r.None? <==> !(0 <= i < |c.view|)
    ensures r.Some? ==> r.value.0.view == RemoveAt(c.view, i)
    ensures r.Some? ==> r.value.1 == Change(i, |c.view| - 1)
    ensures r.Some? && c.view[i] in c.objects ==>
      var j := IndexOf(c.objects, c.view[i]);
      0 <= j && r.value.0.objects == RemoveAt(c.objects, j)
    ensures r.Some? && Valid(c) ==> Valid(r.value.0)
    ensures r.Some? && Valid(c) ==> multiset(r.value.0.objects) == multiset(c.objects) - multiset{c.view[i]}
  {
    if !(0 <= i < |c.view|) then None
    else
      var x := c.view[i];
      var j := IndexOf(c.objects, x);
      var view := RemoveAt(c.view, i);
      var objects := Splice1(c.objects, j);
      RemoveValid(c, i);
      Some((Collection(objects, view), Change(i, |view|)))
  }

  lemma RemoveValid(c: Collection, i: int)
    requires 0 <= i < |c.view|
    ensures Valid(c) ==> Valid(Collection(Splice1(c.objects, IndexOf(c.objects, c.view[i])), RemoveAt(c.view, i)))
    ensures Valid(c) ==>
      multiset(Splice1(c.objects, IndexOf(c.objects, c.view[i]))) == multiset(c.objects) - multiset{c.view[i]}
  {
    if Valid(c) {
      var x := c.view[i];
      assert x in multiset(c.objects);
      var j := IndexOf(c.objects, x);
      var view := RemoveAt(c.view, i);
      var objects := Splice1(c.objects, j);
      assert objects == RemoveAt(c.objects, j);
      RemoveAtMultiset(c.view, i);
      RemoveAtMultiset(c.objects, j);
      assert multiset(view) == multiset(c.view) - multiset{x};
      assert multiset(objects) == multiset(c.objects) - multiset{x};
    }
  }

  /** Inserts `x` after every element whose date is not larger: the insertion
      step of a stable sort. */
  function InsertAfterEqual(s: seq<Item>, x: Item): (r: seq<Item>)
    requires Sorted(s)
    ensures Sorted(r)
    ensures multiset(r) == multiset(s) + multiset{x}
  {
    if |s| == 0 then [x]
    else if x.date < s[|s| - 1].date then
      var last := s[|s| - 1];
      var init := s[..|s| - 1];
      var inner := InsertAfterEqual(init, x);
      assert s == init + [last];
      forall k | 0 <= k < |inner| ensures inner[k].date <= last.date {
        assert inner[k] in multiset(inner);
        assert inner[k] == x || inner[k] in multiset(init);
      }
      inner + [last]
    else s + [x]
  }

  /** `[...objects].sort((a, b) => a.date - b.date)`. */
  function SortByDate(s: seq<Item>): (r: seq<Item>)
    ensures Sorted(r)
    ensures multiset(r) == multiset(s)
  {
    if |s| == 0 then []
    else
      assert s == s[..|s| - 1] + [s[|s| - 1]];
      InsertAfterEqual(SortByDate(s[..|s| - 1]), s[|s| - 1])
  }

  /** The collection part of `load`: take the document's objects, sort a copy
      for the view, report the whole view as changed. */
  function Load(objects: seq<Item>): (r: (Collection, Change))
    ensures r.0.objects == objects
    ensures Valid(r.0)
    ensures r.1 == Change(0, |objects| - 1)
  {
    var view := SortByDate(objects);
    assert |view| == |multiset(view)| == |objects|;
    (Collection(objects, view), Change(0, |view| - 1))
  }
}

=== FILE: feeler.dfy ===
/** The touch tracker (feeler.js): a list of live touches fed by the
    element's touchstart, touchend and touchmove events, with listeners that
    see each change. A listener is modelled as three functions over a state
    of its own; a 'start' listener may reject the touch. */
module Feeler {
  import opened Common
  import opened Seqs
  import opened TouchList

  datatype Point = Point(x: real, y: real)

  /** A tracked touch: where it is, where it started, and where it was one
      move ago. */
  datatype FeelTouch = FeelTouch(identifier: int, pos: Point, origin: Point, last: Point)

  /** An entry of a DOM event's `changedTouches`. */
  datatype EventTouch = EventTouch(identifier: int, client: Point)

  /** The listeners of one feeler: `start` returns its new state and whether
      it rejected the touch; `end` and `move` return the new state. Each
      receives the touch list as it stands when the event is dispatched. */
  datatype Listener<!S> = Listener(
    start: (S, seq<FeelTouch>, FeelTouch) -> (S, bool),
    end: (S, seq<FeelTouch>, FeelTouch) -> S,
    move: (S, seq<FeelTouch>) -> S)

  datatype Feeler<S> = Feeler(touches: seq<FeelTouch>, state: S)

  function NewTouch(e: EventTouch): FeelTouch {
    FeelTouch(e.identifier, e.client, e.client, e.client)
  }

  /** The identifiers of the touch list, position by position. */
  function Ids(touches: seq<FeelTouch>): seq<int> {
    seq(|touches|, k requires 0 <= k < |touches| => touches[k].identifier)
  }

  predicate Tracked(touches: seq<FeelTouch>, id: int) {
    id in Ids(touches)
  }

  /** `getTouchIndex`: the first touch with the identifier, or -1. */
  function GetTouchIndex(touches: seq<FeelTouch>, id: int): int {
    FirstIndex(Ids(touches), id)
  }

  /** `getTouch`: the tracked touch with the identifier, if any. */
  function GetTouch(touches: seq<FeelTouch>, id: int): (r: Option<FeelTouch>)
    ensures r.None? <==> !Tracked(touches, id)
    ensures r.Some? ==> r.value.identifier == id && r.value in touches
    ensures r.Some? ==> r.value == touches[GetTouchIndex(touches, id)]
  {
    var i := GetTouchIndex(touches, id);
    if i >= 0 then Some(touches[i]) else None
  }

  /** One changed touch of a touchstart: dispatch 'start' with the touch
      list as it is, and append the new touch unless a listener rejected it. */
  function StartOne<S>(l: Listener<S>, f: Feeler<S>, e: EventTouch): (r: Feeler<S>)
    ensures r.state == l.start(f.state, f.touches, NewTouch(e)).0
    ensures l.start(f.state, f.touches, NewTouch(e)).1 ==> r.touches == f.touches
    ensures !l.start(f.state, f.touches, NewTouch(e)).1 ==> r.touches == f.touches + [NewTouch(e)]
  {
    var t := NewTouch(e);
    var (s, rejected) := l.start(f.state, f.touches, t);
    Feeler(if rejected then f.touches else f.touches + [t], s)
  }

  /** A touch that starts is at its origin and has not moved. */
  lemma StartedTouchIsAtRest<S>(l: Listener<S>, f: Feeler<S>, e: EventTouch)
    requires !l.start(f.state, f.touches, NewTouch(e)).1
    ensures var t := StartOne(l, f, e).touches[|f.touches|];
      t.identifier == e.identifier && t.pos == e.client && t.origin == t.pos && t.last == t.pos
  {
  }

  /** The touchstart handler over every changed touch, in order. */
  function TouchStart<S>(l: Listener<S>, f: Feeler<S>, changed: seq<EventTouch>): (r: Feeler<S>)
    ensures |f.touches| <= |r.touches| <= |f.touches| + |changed|
    ensures r.touches[..|f.touches|] == f.touches
    decreases |changed|
  {
    if |changed| == 0 then f
    else StartOne(l, TouchStart(l, f, changed[..|changed| - 1]), changed[|changed| - 1])
  }

  /** What a touchend does to the list for one identifier: the first touch
      with it goes, if there is one. */
  function Lift(touches: seq<FeelTouch>, id: int): seq<FeelTouch> {
    var i := GetTouchIndex(touches, id);
    if i >= 0 then RemoveAt(touches, i) else touches
  }

  /** One changed touch of a touchend: when tracked, dispatch 'end' while
      the touch is still listed, then remove that one touch. */
  function EndOne<S>(l: Listener<S>, f: Feeler<S>, e: EventTouch): (r: Feeler<S>)
    ensures !Tracked(f.touches, e.identifier) ==> r == f
    ensures Tracked(f.touches, e.identifier) ==>
      var i := GetTouchIndex(f.touches, e.identifier);
      && r.state == l.end(f.state, f.touches, f.touches[i])
      && r.touches == RemoveAt(f.touches, i)
  {
    var i := GetTouchIndex(f.touches, e.identifier);
    if i >= 0 then Feeler(Lift(f.touches, e.identifier), l.end(f.state, f.touches, f.touches[i])) else f
  }

  /** The touch an end removes is the one the 'end' listener saw: it
      carries the identifier, and the list loses exactly it. */
  lemma EndRemovesExactlyThatTouch<S>(l: Listener<S>, f: Feeler<S>, e: EventTouch)
    requires Tracked(f.touches, e.identifier)
    ensures var t := f.touches[GetTouchIndex(f.touches, e.identifier)];
      t.identifier == e.identifier && multiset(EndOne(l, f, e).touches) + multiset{t} == multiset(f.touches)
  {
    RemoveAtMultiset(f.touches, GetTouchIndex(f.touches, e.identifier));
  }

  /** The identifiers of a DOM event's changed touches, in order. */
  function EndedIds(changed: seq<EventTouch>): (r: seq<int>)
    ensures |r| == |changed| && forall j :: 0 <= j < |r| ==> r[j] == changed[j].identifier
  {
    seq(|changed|, j requires 0 <= j < |changed| => changed[j].identifier)
  }

  lemma EndedIdsSnoc(changed: seq<EventTouch>)
    requires |changed| > 0
    ensures EndedIds(changed) == EndedIds(changed[..|changed| - 1]) + [changed[|changed| - 1].identifier]
  {
  }

  /** The touchend handler over every changed touch, in order. It only
      removes touches, and changes nothing when no ended identifier is
      tracked. */
  function TouchEnd<S>(l: Listener<S>, f: Feeler<S>, changed: seq<EventTouch>): (r: Feeler<S>)
    ensures |r.touches| <= |f.touches|
    ensures multiset(r.touches) <= multiset(f.touches)
    ensures (forall j :: 0 <= j < |changed| ==> !Tracked(f.touches, changed[j].identifier)) ==> r == f
    decreases |changed|
  {
    if |changed| == 0 then f
    else
      var prev := TouchEnd(l, f, changed[..|changed| - 1]);
      var e := changed[|changed| - 1];
      assert multiset(EndOne(l, prev, e).touches) <= multiset(prev.touches) by {
        if Tracked(prev.touches, e.identifier) {
          EndRemovesExactlyThatTouch(l, prev, e);
        }
      }
      EndOne(l, prev, e)
  }

  /** The list a touchend leaves depends on the touches and the changed
      identifiers only: it is `Lift` applied once per changed touch. */
  lemma EndOneLifts<S>(l: Listener<S>, f: Feeler<S>, e: EventTouch)
    ensures EndOne(l, f, e).touches == Lift(f.touches, e.identifier)
  {
  }

  /** Lifting one identifier keeps every touch with another identifier. */
  lemma LiftKeepsOthers(touches: seq<FeelTouch>, id: int, t: FeelTouch)
    requires t in touches && t.identifier != id
    ensures t in Lift(touches, id)
  {
    var i := GetTouchIndex(touches, id);
    if i >= 0 {
      var m :| 0 <= m < |touches| && touches[m] == t;
      assert Ids(touches)[i] == id;
      var r := RemoveAt(touches, i);
      if m < i { assert r[m] == t; } else { assert m > i && r[m - 1] == t; }
    }
  }

  /** A touch whose identifier no changed touch names is still tracked
      after the touchend. */
  lemma {:induction false} TouchEndKeepsOthers<S>(l: Listener<S>, f: Feeler<S>, changed: seq<EventTouch>, t: FeelTouch)
    requires t in f.touches && t.identifier !in EndedIds(changed)
    ensures t in TouchEnd(l, f, changed).touches
    decreases |changed|
  {
    if |changed| > 0 {
      var init := changed[..|changed| - 1];
      var e := changed[|changed| - 1];
      EndedIdsSnoc(changed);
      TouchEndKeepsOthers(l, f, init, t);
      var prev := TouchEnd(l, f, init);
      EndOneLifts(l, prev, e);
      LiftKeepsOthers(prev.touches, e.identifier, t);
    }
  }

  predicate DistinctIds(touches: seq<FeelTouch>) {
    forall j, k :: 0 <= j < k < |touches| ==> touches[j].identifier != touches[k].identifier
  }

  /** Reference definition of a touchend: the touches whose identifier is not
      in `gone`, in their order. */
  function Unended(touches: seq<FeelTouch>, gone: seq<int>): (r: seq<FeelTouch>)
    ensures forall k :: 0 <= k < |r| ==> r[k] in touches && r[k].identifier !in gone
  {
    if |touches| == 0 then []
    else
      var last := touches[|touches| - 1];
      Unended(touches[..|touches| - 1], gone) + if last.identifier in gone then [] else [last]
  }

  lemma {:induction false} UnendedNone(t: seq<FeelTouch>)
    ensures Unended(t, []) == t
    decreases |t|
  {
    if |t| > 0 {
      UnendedNone(t[..|t| - 1]);
      assert t == t[..|t| - 1] + [t[|t| - 1]];
    }
  }

  /** A touch with another identifier appended after the list does not
      change which touch is lifted. */
  lemma LiftSnoc(u: seq<FeelTouch>, x: FeelTouch, id: int)
    requires x.identifier != id
    ensures Lift(u + [x], id) == Lift(u, id) + [x]
  {
    var v := u + [x];
    assert Ids(v) == Ids(u) + [x.identifier];
    FirstIndexSnoc(Ids(u), x.identifier, id);
    var i := GetTouchIndex(u, id);
    if i >= 0 {
      assert RemoveAt(v, i) == RemoveAt(u, i) + [x];
    }
  }

  /** With distinct identifiers, lifting one more identifier from the
      unended touches is the same as never having kept it. */
  lemma {:induction false} LiftUnended(t: seq<FeelTouch>, gone: seq<int>, id: int)
    requires DistinctIds(t)
    ensures Lift(Unended(t, gone), id) == Unended(t, gone + [id])
    decreases |t|
  {
    if |t| > 0 {
      var init := t[..|t| - 1];
      var x := t[|t| - 1];
      var u := Unended(init, gone);
      var w := Unended(init, gone + [id]);
      assert DistinctIds(init);
      LiftUnended(init, gone, id);
      assert Lift(u, id) == w;
      assert x.identifier in gone + [id] <==> x.identifier in gone || x.identifier == id;
      if x.identifier in gone {
        assert Unended(t, gone) == u;
        assert Unended(t, gone + [id]) == w;
      } else if x.identifier == id {
        assert Unended(t, gone) == u + [x];
        assert Unended(t, gone + [id]) == w;
        assert !Tracked(u, id) by {
          forall k | 0 <= k < |u| ensures Ids(u)[k] != id {
            assert u[k] in init;
          }
        }
        assert w == u;
        assert Ids(u + [x])[|u|] == id;
        assert GetTouchIndex(u + [x], id) == |u|;
        assert RemoveAt(u + [x], |u|) == u;
      } else {
        assert Unended(t, gone) == u + [x];
        assert Unended(t, gone + [id]) == w + [x];
        LiftSnoc(u, x, id);
      }
    }
  }

  /** With distinct identifiers a touchend leaves exactly the touches whose
      identifier no changed touch names, in their order. */
  lemma {:induction false} TouchEndKeepsUnended<S>(l: Listener<S>, f: Feeler<S>, changed: seq<EventTouch>)
    requires DistinctIds(f.touches)
    ensures TouchEnd(l, f, changed).touches == Unended(f.touches, EndedIds(changed))
    decreases |changed|
  {
    if |changed| == 0 {
      UnendedNone(f.touches);
    } else {
      var init := changed[..|changed| - 1];
      var e := changed[|changed| - 1];
      TouchEndKeepsUnended(l, f, init);
      EndOneLifts(l, TouchEnd(l, f, init), e);
      assert TouchEnd(l, f, changed).touches == Lift(TouchEnd(l, f, init).touches, e.identifier);
      EndedIdsSnoc(changed);
      LiftUnended(f.touches, EndedIds(init), e.identifier);
    }
  }

  /** The first pass of touchmove: every touch's `last` becomes its `pos`. */
  function Shift(touches: seq<FeelTouch>): (r: seq<FeelTouch>)
    ensures |r| == |touches|
    ensures forall k :: 0 <= k < |r| ==> r[k] == touches[k].(last := touches[k].pos)
  {
    seq(|touches|, k requires 0 <= k < |touches| => touches[k].(last := touches[k].pos))
  }

  /** The position of the last changed touch with the identifier, or
      `default` when none has it. */
  function LastClient(changed: seq<EventTouch>, id: int, default: Point): Point
    decreases |changed|
  {
    if |changed| == 0 then default
    else if changed[|changed| - 1].identifier == id then changed[|changed| - 1].client
    else LastClient(changed[..|changed| - 1], id, default)
  }

  /** Move the first touch with the changed touch's identifier, if any. */
  function MovePos(touches: seq<FeelTouch>, e: EventTouch): (r: seq<FeelTouch>)
    ensures Ids(r) == Ids(touches)
  {
    var i := GetTouchIndex(touches, e.identifier);
    if i < 0 then touches else touches[i := touches[i].(pos := e.client)]
  }

  /** The second pass of touchmove. Identifiers, origins and `last` stay;
      a touch no changed entry names keeps its position; the first touch of
      each identifier ends at the last position reported for it. */
  function MoveAll(touches: seq<FeelTouch>, changed: seq<EventTouch>): (r: seq<FeelTouch>)
    ensures |r| == |touches| && Ids(r) == Ids(touches)
    ensures forall k :: 0 <= k < |r| ==> r[k].origin == touches[k].origin && r[k].last == touches[k].last
    ensures forall k :: 0 <= k < |r| && GetTouchIndex(touches, touches[k].identifier) != k ==> r[k].pos == touches[k].pos
    ensures forall k :: 0 <= k < |r| && GetTouchIndex(touches, touches[k].identifier) == k ==>
      r[k].pos == LastClient(changed, touches[k].identifier, touches[k].pos)
    decreases |changed|
  {
    if |changed| == 0 then touches
    else
      var prev := MoveAll(touches, changed[..|changed| - 1]);
      var e := changed[|changed| - 1];
      assert forall id :: GetTouchIndex(prev, id) == GetTouchIndex(touches, id) by {
        assert Ids(prev) == Ids(touches);
      }
      MovePos(prev, e)
  }

  /** The touchmove handler: shift, move, then dispatch 'move' with the
      updated list. */
  function TouchMove<S>(l: Listener<S>, f: Feeler<S>, changed: seq<EventTouch>): (r: Feeler<S>)
    ensures |r.touches| == |f.touches|
    ensures forall k :: 0 <= k < |r.touches| ==>
      && r.touches[k].identifier == f.touches[k].identifier
      && r.touches[k].origin == f.touches[k].origin
      && r.touches[k].last == f.touches[k].pos
    ensures forall k :: 0 <= k < |r.touches| && GetTouchIndex(f.touches, f.touches[k].identifier) != k ==>
      r.touches[k].pos == f.touches[k].pos
    ensures forall k :: 0 <= k < |r.touches| && GetTouchIndex(f.touches, f.touches[k].identifier) == k ==>
      r.touches[k].pos == LastClient(changed, f.touches[k].identifier, f.touches[k].pos)
    ensures r.state == l.move(f.state, r.touches)
  {
    var shifted := Shift(f.touches);
    assert Ids(shifted) == Ids(f.touches);
    var moved := MoveAll(shifted, changed);
    assert forall k :: 0 <= k < |moved| ==> moved[k].identifier == Ids(moved)[k];
    Feeler(moved, l.move(f.state, moved))
  }

  datatype TouchEvent =
    | TouchStartEvent(changed: seq<EventTouch>)
    | TouchEndEvent(changed: seq<EventTouch>)
    | TouchMoveEvent(changed: seq<EventTouch>)

  function Step<S>(l: Listener<S>, f: Feeler<S>, ev: TouchEvent): Feeler<S> {
    match ev
    case TouchStartEvent(changed) => TouchStart(l, f, changed)
    case TouchEndEvent(changed) => TouchEnd(l, f, changed)
    case TouchMoveEvent(changed) => TouchMove(l, f, changed)
  }

  function Run<S>(l: Listener<S>, f: Feeler<S>, evs: seq<TouchEvent>): Feeler<S>
    decreases |evs|
  {
    if |evs| == 0 then f else Step(l, Run(l, f, evs[..|evs| - 1]), evs[|evs| - 1])
  }

  /** `Feeler.disable`: a single listener that rejects every start. */
  function Disable<S(!new)>(): (r: Listener<S>)
    ensures forall s: S, ts, t :: r.start(s, ts, t).1 && r.start(s, ts, t).0 == s
    ensures forall s: S, ts, t :: r.end(s, ts, t) == s
    ensures forall s: S, ts :: r.move(s, ts) == s
  {
    Listener((s, ts, t) => (s, true), (s, ts, t) => s, (s, ts) => s)
  }

  lemma {:induction false} RejectedStartsAddNothing<S(!new)>(f: Feeler<S>, changed: seq<EventTouch>)
    ensures TouchStart(Disable(), f, changed).touches == f.touches
    decreases |changed|
  {
    if |changed| > 0 {
      RejectedStartsAddNothing(f, changed[..|changed| - 1]);
    }
  }

  /** A disabled element never tracks a touch, whatever arrives. */
  lemma {:induction false} DisabledStaysEmpty<S(!new)>(s: S, evs: seq<TouchEvent>)
    ensures Run(Disable(), Feeler([], s), evs).touches == []
    decreases |evs|
  {
    if |evs| > 0 {
      DisabledStaysEmpty(s, evs[..|evs| - 1]);
      var f := Run(Disable(), Feeler([], s), evs[..|evs| - 1]);
      match evs[|evs| - 1]
      case TouchStartEvent(changed) => RejectedStartsAddNothing(f, changed);
      case TouchEndEvent(changed) =>
      case TouchMoveEvent(changed) =>
    }
  }

  /** The state of `Feeler.tap`: whether a press is armed, and how many times
      the callback has run. */
  datatype TapState = TapState(down: bool, fired: nat)

  /** `Feeler.tap`'s listeners: a start while another touch is live is
      rejected and disarms; a start on an idle element arms; an end runs the
      callback when armed; any move disarms. */
  function Tap(): (r: Listener<TapState>)
    ensures forall s, ts, t :: r.start(s, ts, t).1 <==> |ts| > 0
    ensures forall s, ts, t :: r.start(s, ts, t).0 == s.(down := |ts| == 0)
    ensures forall s, ts, t :: r.end(s, ts, t).down == s.down
    ensures forall s, ts, t :: r.end(s, ts, t).fired == if s.down then s.fired + 1 else s.fired
    ensures forall s, ts :: r.move(s, ts) == s.(down := false)
  {
    Listener(
      (s: TapState, ts: seq<FeelTouch>, t: FeelTouch) =>
        if |ts| > 0 then (s.(down := false), true) else (s.(down := true), false),
      (s: TapState, ts: seq<FeelTouch>, t: FeelTouch) =>
        if s.down then s.(fired := s.fired + 1) else s,
      (s: TapState, ts: seq<FeelTouch>) => s.(down := false))
  }

  /** A press on an idle element is tracked and arms the tap; a press while
      a touch is live is rejected and disarms it. */
  lemma TapStart(f: Feeler<TapState>, e: EventTouch)
    ensures |f.touches| == 0 ==> TouchStart(Tap(), f, [e]) == Feeler([NewTouch(e)], f.state.(down := true))
    ensures |f.touches| > 0 ==> TouchStart(Tap(), f, [e]) == Feeler(f.touches, f.state.(down := false))
  {
    assert [e][..0] == [];
  }

  /** A lift runs the callback exactly when the lifted touch is tracked and
      the tap is armed. */
  lemma TapEnd(f: Feeler<TapState>, e: EventTouch)
    ensures TouchEnd(Tap(), f, [e]).state.fired ==
      f.state.fired + if f.state.down && Tracked(f.touches, e.identifier) then 1 else 0
  {
    assert [e][..0] == [];
  }

  /** Any move disarms the tap. */
  lemma TapMove(f: Feeler<TapState>, changed: seq<EventTouch>)
    ensures !TouchMove(Tap(), f, changed).state.down
    ensures TouchMove(Tap(), f, changed).state.fired == f.state.fired
  {
  }

  lemma {:induction false} TapStartsKeepOne(f: Feeler<TapState>, changed: seq<EventTouch>)
    requires |f.touches| <= 1
    ensures |TouchStart(Tap(), f, changed).touches| <= 1
    decreases |changed|
  {
    if |changed| > 0 {
      TapStartsKeepOne(f, changed[..|changed| - 1]);
    }
  }

  /** The tap recogniser never tracks more than one touch. */
  lemma {:induction false} TapTracksAtMostOne(s: TapState, evs: seq<TouchEvent>)
    ensures |Run(Tap(), Feeler([], s), evs).touches| <= 1
    decreases |evs|
  {
    if |evs| > 0 {
      TapTracksAtMostOne(s, evs[..|evs| - 1]);
      var f := Run(Tap(), Feeler([], s), evs[..|evs| - 1]);
      if evs[|evs| - 1].TouchStartEvent? {
        TapStartsKeepOne(f, evs[|evs| - 1].changed);
      }
    }
  }

  lemma RunSnoc<S>(l: Listener<S>, f: Feeler<S>, evs: seq<TouchEvent>, ev: TouchEvent)
    ensures Run(l, f, evs + [ev]) == Step(l, Run(l, f, evs), ev)
  {
    assert (evs + [ev])[..|evs|] == evs;
  }

  /** Press and lift on an idle element: the callback runs once, whatever
      came before. */
  lemma TapFires(f: Feeler<TapState>, evs: seq<TouchEvent>, e: EventTouch)
    requires Run(Tap(), f, evs).touches == []
    ensures Run(Tap(), f, evs + [TouchStartEvent([e]), TouchEndEvent([e])]).state.fired ==
      Run(Tap(), f, evs).state.fired + 1
  {
    var g := Run(Tap(), f, evs);
    var evs1 := evs + [TouchStartEvent([e])];
    RunSnoc(Tap(), f, evs, TouchStartEvent([e]));
    TapStart(g, e);
    var g1 := Feeler([NewTouch(e)], g.state.(down := true));
    assert Run(Tap(), f, evs1) == g1;
    assert g1.touches[0].identifier == e.identifier;
    RunSnoc(Tap(), f, evs1, TouchEndEvent([e]));
    TapEnd(g1, e);
    assert evs1 + [TouchEndEvent([e])] == evs + [TouchStartEvent([e]), TouchEndEvent([e])];
  }

  lemma TapMoveRun(f: Feeler<TapState>, evs: seq<TouchEvent>, moves: seq<EventTouch>)
    ensures !Run(Tap(), f, evs + [TouchMoveEvent(moves)]).state.down
    ensures Run(Tap(), f, evs + [TouchMoveEvent(moves)]).state.fired == Run(Tap(), f, evs).state.fired
  {
    RunSnoc(Tap(), f, evs, TouchMoveEvent(moves));
    TapMove(Run(Tap(), f, evs), moves);
  }

  /** A move and then a lift: the callback does not run, whatever came
      before. */
  lemma DragDoesNotFire(f: Feeler<TapState>, evs: seq<TouchEvent>, moves: seq<EventTouch>, lifted: EventTouch)
    ensures Run(Tap(), f, evs + [TouchMoveEvent(moves), TouchEndEvent([lifted])]).state.fired ==
      Run(Tap(), f, evs).state.fired
  {
    var evs1 := evs + [TouchMoveEvent(moves)];
    TapMoveRun(f, evs, moves);
    RunSnoc(Tap(), f, evs1, TouchEndEvent([lifted]));
    TapEnd(Run(Tap(), f, evs1), lifted);
    assert evs1 + [TouchEndEvent([lifted])] == evs + [TouchMoveEvent(moves), TouchEndEvent([lifted])];
  }

  /** A second finger disarms the tap: lifting either finger afterwards does
      not run the callback. */
  lemma SecondFingerCancels(s: TapState, a: EventTouch, b: EventTouch)
    requires a.identifier != b.identifier
    ensures Run(Tap(), Feeler([], s),
      [TouchStartEvent([a]), TouchStartEvent([b]), TouchEndEvent([b]), TouchEndEvent([a])]).state.fired == s.fired
  {
    var f0 := Feeler([], s);
    var evs1 := [TouchStartEvent([a])];
    var evs2 := evs1 + [TouchStartEvent([b])];
    var evs3 := evs2 + [TouchEndEvent([b])];
    var evs4 := evs3 + [TouchEndEvent([a])];
    var r1 := Run(Tap(), f0, evs1);
    assert r1 == Feeler([NewTouch(a)], s.(down := true)) by {
      RunSnoc(Tap(), f0, [], TouchStartEvent([a]));
      assert [] + evs1 == evs1;
      TapStart(f0, a);
    }
    var r2 := Run(Tap(), f0, evs2);
    assert r2 == Feeler([NewTouch(a)], s.(down := false)) by {
      RunSnoc(Tap(), f0, evs1, TouchStartEvent([b]));
      TapStart(r1, b);
    }
    var r3 := Run(Tap(), f0, evs3);
    assert !r3.state.down && r3.state.fired == s.fired by {
      RunSnoc(Tap(), f0, evs2, TouchEndEvent([b]));
      assert !Tracked(r2.touches, b.identifier);
      TapEnd(r2, b);
      assert r3 == r2;
    }
    assert Run(Tap(), f0, evs4).state.fired == s.fired by {
      RunSnoc(Tap(), f0, evs3, TouchEndEvent([a]));
      TapEnd(r3, a);
    }
    assert evs4 == [TouchStartEvent([a]), TouchStartEvent([b]), TouchEndEvent([b]), TouchEndEvent([a])];
  }
}

=== FILE: filetype.dfy ===
/** Classification of an uploaded file by its leading bytes (api.js
    `getFileType`). The declared name and MIME type are never consulted: the
    file is walked against an ordered signature table and the first entry whose
    bytes match decides the kind. */
module FileType {
  import opened Common

  type Byte = b: int | 0 <= b < 256

  datatype Kind = Jpeg | Heic

  /** One table entry: `header` must occur at byte `offset` of the file. */
  datatype Signature = Signature(kind: Kind, header: seq<Byte>, offset: nat)

  /** Why classification raised instead of returning a kind. */
  datatype SniffError =
    /** Node's `Buffer.compare` rejects a target range that runs past the end
        of the file, so a file too short for an entry's range raises. */
    | OutOfRange
    /** No entry matched and the diagnostic dump of the first 16 bytes read
        past the end of a shorter file. */
    | ShortDump
    /** No entry matched; the error reports the first 16 bytes. */
    | UnknownSignature(prefix: seq<Byte>)

  /** The four JPEG start-of-image markers, then the ISO base media
      "ftypheic" box brand at offset 4, in table order. */
  const Signatures: seq<Signature> := [
    Signature(Jpeg, [0xFF, 0xD8, 0xFF, 0xDB], 0),
    Signature(Jpeg, [0xFF, 0xD8, 0xFF, 0xE0], 0),
    Signature(Jpeg, [0xFF, 0xD8, 0xFF, 0xEE], 0),
    Signature(Jpeg, [0xFF, 0xD8, 0xFF, 0xE1], 0),
    Signature(Heic, [0x66, 0x74, 0x79, 0x70, 0x68, 0x65, 0x69, 0x63], 4)
  ]

  /** The entry's byte range lies inside the file. */
  predicate Fits(file: seq<Byte>, sig: Signature) {
    sig.offset + |sig.header| <= |file|
  }

  /** The entry's bytes occur at its offset. */
  predicate Hit(file: seq<Byte>, sig: Signature) {
    Fits(file, sig) && file[sig.offset .. sig.offset + |sig.header|] == sig.header
  }

  /** Entries `from` up to (not including) `upto` were compared without a
      match and without raising. */
  predicate PassedBetween(file: seq<Byte>, table: seq<Signature>, from: nat, upto: nat)
    requires from <= upto <= |table|
  {
    forall j :: from <= j < upto ==> Fits(file, table[j]) && !Hit(file, table[j])
  }

  /** What the walk returns at an entry that decides it: a raise when its
      range does not fit, its kind otherwise. */
  function Decide(file: seq<Byte>, sig: Signature): Result<Option<Kind>, SniffError> {
    if Fits(file, sig) then Ok(Some(sig.kind)) else Err(OutOfRange)
  }

  /** Entry `k` is the first from `i` on that either does not fit or matches. */
  predicate FirstDecided(file: seq<Byte>, table: seq<Signature>, i: nat, k: nat)
    requires i <= |table|
  {
    i <= k < |table| && PassedBetween(file, table, i, k) && (!Fits(file, table[k]) || Hit(file, table[k]))
  }

  /** The table walk from entry `i` on: the first entry that matches decides
      the kind, the first entry whose range does not fit raises, and `Ok(None)`
      means every entry was compared without a match. */
  function Scan(file: seq<Byte>, table: seq<Signature>, i: nat): (r: Result<Option<Kind>, SniffError>)
    requires i <= |table|
    ensures r == Ok(None) <==> PassedBetween(file, table, i, |table|)
    ensures r != Ok(None) ==> exists k: nat :: FirstDecided(file, table, i, k) && r == Decide(file, table[k])
    decreases |table| - i
  {
    if i == |table| then Ok(None)
    else if !Fits(file, table[i]) then Err(OutOfRange)
    else if Hit(file, table[i]) then Ok(Some(table[i].kind))
    else
      var r := Scan(file, table, i + 1);
      assert r != Ok(None) ==> exists k: nat :: FirstDecided(file, table, i, k) && r == Decide(file, table[k]) by {
        if r != Ok(None) {
          var k: nat :| FirstDecided(file, table, i + 1, k) && r == Decide(file, table[k]);
          assert FirstDecided(file, table, i, k);
        }
      }
      r
  }

  /** The file starts with a JPEG start-of-image marker FF D8 FF followed by
      one of DB, E0, EE, E1. */
  predicate IsJpeg(file: seq<Byte>) {
    && |file| >= 4
    && file[0] == 0xFF && file[1] == 0xD8 && file[2] == 0xFF
    && (file[3] == 0xDB || file[3] == 0xE0 || file[3] == 0xEE || file[3] == 0xE1)
  }

  /** Bytes 4 to 11 of the file spell "ftypheic" in ASCII. */
  predicate IsHeic(file: seq<Byte>) {
    && |file| >= 12
    && file[4] == 'f' as int && file[5] == 't' as int && file[6] == 'y' as int && file[7] == 'p' as int
    && file[8] == 'h' as int && file[9] == 'e' as int && file[10] == 'i' as int && file[11] == 'c' as int
  }

  /** `getFileType(file, fileName)`. The extension fallback after the throw is
      unreachable in api.js, so the name takes no part in the result. */
  function GetFileType(file: seq<Byte>, fileName: string): (r: Result<Kind, SniffError>)
    ensures r.Ok? ==> exists k :: 0 <= k < |Signatures| && Hit(file, Signatures[k]) && Signatures[k].kind == r.value
    ensures r == Err(ShortDump) || (r.Err? && r.error.UnknownSignature?) ==>
      forall k :: 0 <= k < |Signatures| ==> !Hit(file, Signatures[k])
    ensures r.Err? && r.error.UnknownSignature? ==> |file| >= 16 && r.error.prefix == file[..16]
  {
    match Scan(file, Signatures, 0)
    case Err(e) => Err(e)
    case Ok(Some(k)) => Ok(k)
    case Ok(None) => if |file| < 16 then Err(ShortDump) else Err(UnknownSignature(file[..16]))
  }

  /** One step of the walk at an entry that fits. */
  lemma ScanStep(file: seq<Byte>, table: seq<Signature>, i: nat)
    requires i < |table| && Fits(file, table[i])
    ensures Scan(file, table, i) == if Hit(file, table[i]) then Ok(Some(table[i].kind)) else Scan(file, table, i + 1)
  {
  }

  /** The HEIC entry, last in the table, on a file too short for its range. */
  lemma ScanHeicShort(file: seq<Byte>)
    requires |file| < 12
    ensures Scan(file, Signatures, 4) == Err(OutOfRange)
  {
    assert !Fits(file, Signatures[4]);
  }

  /** The HEIC entry on a file long enough for its range. */
  lemma ScanHeicLong(file: seq<Byte>)
    requires |file| >= 12
    ensures Scan(file, Signatures, 4) == if IsHeic(file) then Ok(Some(Heic)) else Ok(None)
  {
    var t := Signatures;
    assert Scan(file, t, 5) == Ok(None);
    assert file[4..12] == [file[4], file[5], file[6], file[7], file[8], file[9], file[10], file[11]];
    assert IsHeic(file) <==> Hit(file, t[4]);
    ScanStep(file, t, 4);
  }

  /** Entry `j` of the four JPEG entries matches exactly when the file starts
      with FF D8 FF and the marker byte of that entry. */
  lemma JpegHit(file: seq<Byte>, j: nat)
    requires |file| >= 4 && j < 4
    ensures Hit(file, Signatures[j]) <==>
      file[0] == 0xFF && file[1] == 0xD8 && file[2] == 0xFF && file[3] == Signatures[j].header[3]
  {
    assert file[0..4] == [file[0], file[1], file[2], file[3]];
  }

  /** The four JPEG entries on a file long enough for their range. */
  lemma ScanJpeg(file: seq<Byte>)
    requires |file| >= 4
    ensures Scan(file, Signatures, 0) == if IsJpeg(file) then Ok(Some(Jpeg)) else Scan(file, Signatures, 4)
  {
    var t := Signatures;
    JpegHit(file, 0);
    JpegHit(file, 1);
    JpegHit(file, 2);
    JpegHit(file, 3);
    ScanStep(file, t, 3);
    ScanStep(file, t, 2);
    ScanStep(file, t, 1);
    ScanStep(file, t, 0);
  }

  /** The kind returned is JPEG exactly for the JPEG markers, HEIC exactly for
      the "ftypheic" brand without a JPEG marker (the first entry wins), and
      every other file raises: there is no fallback and no `null` result. */
  lemma GetFileTypeSpec(file: seq<Byte>, fileName: string)
    ensures GetFileType(file, fileName) == Ok(Jpeg) <==> IsJpeg(file)
    ensures GetFileType(file, fileName) == Ok(Heic) <==> !IsJpeg(file) && IsHeic(file)
    ensures GetFileType(file, fileName).Err? <==> !IsJpeg(file) && !IsHeic(file)
    ensures GetFileType(file, fileName).Err? && |file| >= 16 ==>
      GetFileType(file, fileName) == Err(UnknownSignature(file[..16]))
  {
    if |file| < 4 {
      assert !Fits(file, Signatures[0]);
    } else {
      ScanJpeg(file);
    }
    if |file| < 12 { ScanHeicShort(file); } else { ScanHeicLong(file); }
  }

  /** The result depends on the bytes only, never on the declared name. */
  lemma NameIgnored(file: seq<Byte>, a: string, b: string)
    ensures GetFileType(file, a) == GetFileType(file, b)
  {
  }

  /** A file carrying both a JPEG marker and the HEIC brand is a JPEG: the
      JPEG entries come first in the table. */
  lemma JpegEntriesWin(file: seq<Byte>, fileName: string)
    requires IsJpeg(file) && IsHeic(file)
    ensures GetFileType(file, fileName) == Ok(Jpeg)
  {
    GetFileTypeSpec(file, fileName);
  }
}

=== FILE: gallery.dfy ===
/** The client's gallery object (gallery.js): the date-sorted collection of
    images plus the key it was loaded from. A key may name a write-access
    document holding `galleryKey`; the referenced gallery is then loaded and
    the given key is kept as the key that allows modification. */
module Gallery {
  import opened Common
  import opened Seqs
  import opened DateView

  /** A document `galleries/<key>.json`. `galleryKey` is the referenced
      gallery of a write-access document and empty for a gallery document. */
  datatype Doc = Doc(name: string, images: seq<Item>, galleryKey: string)

  datatype GalleryState = GalleryState(key: string, writeKey: Option<string>, name: string, coll: Collection)

  datatype Loaded =
    | Loaded(state: GalleryState, change: Change)
    | LoadFailed(state: GalleryState, missing: string)

  /** `loadGallery`: take the gallery's name and images, sort the view. */
  function LoadGallery(g: GalleryState, doc: Doc): (r: Loaded)
    ensures r.Loaded? && r.state.key == g.key && r.state.writeKey == g.writeKey
    ensures r.state.name == doc.name && r.state.coll.objects == doc.images && Valid(r.state.coll)
    ensures r.change == Change(0, |doc.images| - 1)
  {
    var loaded := DateView.Load(doc.images);
    Loaded(g.(name := doc.name, coll := loaded.0), loaded.1)
  }

  /** `load(key)`, with `store` standing for the documents the server holds. */
  function Load(g: GalleryState, key: string, store: map<string, Doc>): (r: Loaded)
    ensures key !in store ==> r == LoadFailed(g.(key := key), key)
    ensures key in store && store[key].galleryKey == "" ==>
      r.Loaded? && r.state.key == key && r.state.writeKey == g.writeKey
      && r.state.coll.objects == store[key].images
    ensures key in store && store[key].galleryKey != "" ==>
      r.state.writeKey == Some(key) && r.state.key == store[key].galleryKey
      && (store[key].galleryKey in store <==> r.Loaded?)
      && (r.Loaded? ==> r.state.coll.objects == store[store[key].galleryKey].images)
    ensures r.Loaded? ==> Valid(r.state.coll) && r.change == Change(0, |r.state.coll.view| - 1)
  {
    var g := g.(key := key);
    if key !in store then LoadFailed(g, key)
    else
      var doc := store[key];
      if doc.galleryKey != "" then
        var g := g.(writeKey := Some(key), key := doc.galleryKey);
        if doc.galleryKey !in store then LoadFailed(g, doc.galleryKey) else LoadGallery(g, store[doc.galleryKey])
      else LoadGallery(g, doc)
  }

  /** `add(image)` on a loaded gallery. */
  method Add(g: GalleryState, x: Item) returns (r: GalleryState, change: Change)
    requires Sorted(g.coll.view)
    ensures r.key == g.key && r.writeKey == g.writeKey && r.name == g.name
    ensures r.coll.objects == g.coll.objects + [x] && Sorted(r.coll.view)
    ensures Valid(g.coll) ==> Valid(r.coll)
    ensures 0 <= change.minIndex < |r.coll.view| && r.coll.view[change.minIndex] == x
    ensures forall k :: 0 <= k < change.minIndex ==> r.coll.view[k].date < x.date
    ensures forall k :: change.minIndex < k < |r.coll.view| ==> x.date <= r.coll.view[k].date
    ensures change.maxIndex == |r.coll.view| - 1 == |g.coll.view|
    ensures r.coll.view == g.coll.view[..change.minIndex] + [x] + g.coll.view[change.minIndex..]
  {
    var coll;
    coll, change := DateView.Add(g.coll, x);
    r := g.(coll := coll);
  }

  /** `remove(index)` on a loaded gallery, or nothing for an index its view
      does not hold. */
  function Remove(g: GalleryState, i: int): (r: Option<(GalleryState, Change)>)
    ensures r.None? <==> !(0 <= i < |g.coll.view|)
    ensures r.Some? ==>
      && r.value.0.key == g.key && r.value.0.name == g.name && r.value.0.writeKey == g.writeKey
      && r.value.0.coll.view == g.coll.view[..i] + g.coll.view[i + 1..]
      && r.value.1 == Change(i, |r.value.0.coll.view|)
    ensures r.Some? && g.coll.view[i] in g.coll.objects ==>
      r.value.0.coll.objects == RemoveAt(g.coll.objects, IndexOf(g.coll.objects, g.coll.view[i]))
    ensures r.Some? && Valid(g.coll) ==>
      && Valid(r.value.0.coll)
      && multiset(r.value.0.coll.objects) == multiset(g.coll.objects) - multiset{g.coll.view[i]}
  {
    match DateView.Remove(g.coll, i)
    case None => None
    case Some(res) => Some((g.(coll := res.0), res.1))
  }
}

=== FILE: grid.dfy ===
/** The thumbnail grid arithmetic shared by the gallery page (thumbs.js
    `resize`) and the older page script (client.js `layout`): thumbnails are
    at most 200 px, 2 px apart; the number per row is the fewest for which no
    thumbnail is enlarged, the size is the width rounded up per column, and the
    last thumbnail of a row takes what is left. */
module Grid {
  import opened Common

  /** Native size of a thumbnail image, in px. */
  const ThumbRes: nat := 200

  /** Horizontal space between thumbnails, in px. */
  const ThumbMargin: nat := 2

  /** `Math.ceil(a / b)` for a non-negative numerator. */
  function CeilDiv(a: nat, b: nat): (q: nat)
    requires b > 0
    ensures q * b >= a
    ensures q == 0 || (q - 1) * b < a
  {
    var q := (a + b - 1) / b;
    assert q * b <= a + b - 1 < (q + 1) * b;
    q
  }

  /** Per row: how many thumbnails, their size, and the width of the last. */
  datatype Columns = Columns(count: nat, size: int, endSize: int)

  /** The width, height and class attributes of a thumbnail element: the
      common size (`thumb`), the end-of-row size (`thumb-end`), or none for an
      element that was never styled. */
  datatype Style = Unstyled | Thumb(width: int, height: int) | ThumbEnd(width: int, height: int)

  /** `Math.ceil(x / n - m)` is `Math.ceil(x / n) - m` for integer `m`. */
  function ColumnsFor(width: nat): (c: Columns)
    ensures c.count >= 1
    ensures c.count * (ThumbRes + ThumbMargin) >= width + ThumbMargin
    ensures (c.count - 1) * (ThumbRes + ThumbMargin) < width + ThumbMargin
    ensures 0 <= c.size <= ThumbRes
    ensures width >= 1 <==> c.size >= 1
    ensures c.size - c.count < c.endSize <= c.size
  {
    var n := CeilDiv(width + ThumbMargin, ThumbRes + ThumbMargin);
    var q := CeilDiv(width + ThumbMargin, n);
    ColumnsBounds(width, n, q);
    Columns(n, q - ThumbMargin, width - (n - 1) * q)
  }

  lemma ColumnsBounds(width: nat, n: nat, q: nat)
    requires n >= 1 && n * 202 >= width + 2 && (n - 1) * 202 < width + 2
    requires q * n >= width + 2 && (q - 1) * n < width + 2
    ensures q <= 202
    ensures q >= 2
    ensures width >= 1 <==> q >= 3
    ensures q - 2 - n < width - (n - 1) * q <= q - 2
  {
    assert (q - 1) * n < 202 * n;
    assert q - 1 < 202;
    assert n < width + 2 by {
      assert n * 202 < width + 2 + 202;
    }
    assert q >= 2;
    if width >= 1 {
      assert 2 * n < width + 2 by {
        assert (n - 1) * 202 < width + 2;
        assert 202 * n < width + 204;
        assert 2 * n * 101 < width + 204;
      }
      assert q >= 3;
    } else {
      assert n == 1;
    }
  }

  /** `Math.ceil(height / size) + 1`: enough rows to cover the height with
      one row to spare while scrolling. A size of 0 has no finite row count
      (thumbs.js and client.js compute Infinity or NaN). */
  function RowsFor(height: nat, size: int): (r: Option<nat>)
    ensures r.None? <==> size <= 0
    ensures r.Some? ==> r.value >= 1
    ensures r.Some? ==> r.value * size >= height + size
    ensures r.Some? ==> (r.value - 2) * size < height
  {
    if size <= 0 then None
    else
      var q := CeilDiv(height, size);
      assert (q + 1) * size == q * size + size;
      assert (q + 1 - 2) * size == (q - 1) * size;
      Some(q + 1)
  }

  /** The thumbnail at 1-based position `position` is the last of its row
      (the `:nth-child(count n)` selector; no position when count is 0). */
  predicate IsEnd(position: nat, count: nat) {
    count != 0 && position % count == 0
  }

  function SlotWidth(c: Columns, position: nat): int {
    if IsEnd(position, c.count) then c.endSize else c.size
  }

  /** Width covered by the first `n` thumbnails of a row and the margins
      between them. */
  function RowSpan(c: Columns, n: nat): int {
    if n == 0 then 0
    else if n == 1 then SlotWidth(c, 1)
    else RowSpan(c, n - 1) + ThumbMargin + SlotWidth(c, n)
  }

  lemma {:induction false} RowSpanBeforeEnd(c: Columns, n: nat)
    requires 1 <= n < c.count
    ensures RowSpan(c, n) == n * c.size + (n - 1) * ThumbMargin
  {
    if n > 1 {
      RowSpanBeforeEnd(c, n - 1);
    }
  }

  lemma RowSpanFull(c: Columns, q: int, width: int)
    requires c.count >= 1 && c.size == q - ThumbMargin && c.endSize == width - (c.count - 1) * q
    ensures RowSpan(c, c.count) == width
  {
    if c.count > 1 {
      var m := c.count - 1;
      RowSpanBeforeEnd(c, m);
      assert RowSpan(c, c.count) == RowSpan(c, m) + ThumbMargin + c.endSize;
      assert m * c.size + (m - 1) * ThumbMargin + ThumbMargin == m * q;
    }
  }

  /** A full row of thumbnails and their margins covers the width exactly:
      every thumbnail but the last has the common size, the last the end
      width. */
  lemma RowFillsWidth(width: nat)
    ensures RowSpan(ColumnsFor(width), ColumnsFor(width).count) == width
  {
    var n := CeilDiv(width + ThumbMargin, ThumbRes + ThumbMargin);
    var q := CeilDiv(width + ThumbMargin, n);
    RowSpanFull(ColumnsFor(width), q, width);
  }
}

=== FILE: keys.dfy ===
/** Random document and file keys (api.js `makeKey`): four draws from
    [0, 36^5 - 1], each written in base 36 and left-padded with '0' to five
    characters, each new chunk prepended to the key. The draws are inputs
    here; the random generator is not part of the model. */
module Keys {

  const ChunkWidth: nat := 5
  const KeyLength: nat := 20

  /** 36^5, one more than the largest draw ("zzzzz" in base 36). */
  const ChunkLimit: nat := 60466176

  predicate IsDigit(c: char) {
    '0' <= c <= '9' || 'a' <= c <= 'z'
  }

  predicate AllDigits(s: string) {
    forall k :: 0 <= k < |s| ==> IsDigit(s[k])
  }

  function Digit(d: nat): (c: char)
    requires d < 36
    ensures IsDigit(c)
  {
    if d < 10 then ('0' as int + d) as char else ('a' as int + d - 10) as char
  }

  function DigitValue(c: char): (d: nat)
    requires IsDigit(c)
    ensures d < 36
  {
    if c <= '9' then c as int - '0' as int else c as int - 'a' as int + 10
  }

  function Pow36(k: nat): (p: nat)
    ensures p >= 1
  {
    if k == 0 then 1 else 36 * Pow36(k - 1)
  }

  /** The value of a string of base-36 digits, most significant first. */
  function FromBase36(s: string): nat
    requires AllDigits(s)
  {
    if |s| == 0 then 0 else FromBase36(s[..|s| - 1]) * 36 + DigitValue(s[|s| - 1])
  }

  /** `bases.toBase36`: the digits of `n` without leading zeros. */
  function ToBase36(n: nat): (s: string)
    ensures |s| >= 1 && AllDigits(s)
    ensures FromBase36(s) == n
  {
    if n < 36 then [Digit(n)]
    else
      var s := ToBase36(n / 36) + [Digit(n % 36)];
      assert s[..|s| - 1] == ToBase36(n / 36);
      s
  }

  /** A value below 36^k needs at most k digits. */
  lemma {:induction false} ToBase36Length(n: nat, k: nat)
    requires 1 <= k && n < Pow36(k)
    ensures |ToBase36(n)| <= k
  {
    if n >= 36 {
      assert k >= 2;
      ToBase36Length(n / 36, k - 1);
    }
  }

  /** A leading '0' does not change the value of a digit string. */
  lemma {:induction false} LeadingZero(s: string)
    requires AllDigits(s)
    ensures AllDigits(['0'] + s) && FromBase36(['0'] + s) == FromBase36(s)
  {
    var t := ['0'] + s;
    if |s| > 0 {
      assert t[..|t| - 1] == ['0'] + s[..|s| - 1];
      LeadingZero(s[..|s| - 1]);
    }
  }

  /** The padding loop of `makeKey`: prepend '0' until five characters. */
  method PadChunk(s: string) returns (r: string)
    requires AllDigits(s) && |s| <= ChunkWidth
    ensures |r| == ChunkWidth && AllDigits(r)
    ensures FromBase36(r) == FromBase36(s)
    ensures r[ChunkWidth - |s|..] == s
    ensures forall k :: 0 <= k < ChunkWidth - |s| ==> r[k] == '0'
  {
    r := s;
    while |r| < ChunkWidth
      invariant |s| <= |r| <= ChunkWidth && AllDigits(r)
      invariant FromBase36(r) == FromBase36(s)
      invariant r[|r| - |s|..] == s
      invariant forall k :: 0 <= k < |r| - |s| ==> r[k] == '0'
    {
      LeadingZero(r);
      r := ['0'] + r;
    }
  }

  /** Characters `5c` to `5c + 4` of a key. */
  function ChunkAt(key: string, c: nat): (r: string)
    requires ChunkWidth * c + ChunkWidth <= |key| && AllDigits(key)
    ensures |r| == ChunkWidth && AllDigits(r)
  {
    var r := key[ChunkWidth * c .. ChunkWidth * c + ChunkWidth];
    assert forall k :: 0 <= k < |r| ==> r[k] == key[ChunkWidth * c + k];
    r
  }

  /** The four draws a key encodes, in the order they were drawn: the last
      draw was prepended last, so it is the leftmost chunk. */
  function ParseKey(key: string): seq<nat>
    requires |key| == KeyLength && AllDigits(key)
  {
    [FromBase36(ChunkAt(key, 3)), FromBase36(ChunkAt(key, 2)), FromBase36(ChunkAt(key, 1)), FromBase36(ChunkAt(key, 0))]
  }

  predicate IsKey(key: string) {
    |key| == KeyLength && AllDigits(key)
  }

  /** After `i` rounds the key holds draws `0 .. i-1`, the latest leftmost. */
  predicate Encodes(key: string, draws: seq<nat>, i: nat)
    requires |key| == ChunkWidth * i && AllDigits(key) && i <= |draws|
  {
    forall j :: 0 <= j < i ==> FromBase36(ChunkAt(key, i - 1 - j)) == draws[j]
  }

  /** One round of the key loop: prepending the padded chunk of draw `i`. */
  lemma PrependChunk(sub: string, key: string, draws: seq<nat>, i: nat)
    requires |sub| == ChunkWidth && AllDigits(sub) && i < |draws| && FromBase36(sub) == draws[i]
    requires |key| == ChunkWidth * i && AllDigits(key) && Encodes(key, draws, i)
    ensures AllDigits(sub + key) && Encodes(sub + key, draws, i + 1)
  {
    var k := sub + key;
    assert AllDigits(k) by {
      forall m | 0 <= m < |k| ensures IsDigit(k[m]) {
        if m < |sub| { assert k[m] == sub[m]; } else { assert k[m] == key[m - |sub|]; }
      }
    }
    forall j | 0 <= j < i + 1 ensures FromBase36(ChunkAt(k, i - j)) == draws[j] {
      if j == i {
        assert ChunkAt(k, 0) == sub;
      } else {
        assert ChunkAt(k, i - j) == ChunkAt(key, i - 1 - j);
      }
    }
  }

  /** `makeKey()` with its four draws given. */
  method MakeKey(draws: seq<nat>) returns (key: string)
    requires |draws| == 4 && forall i :: 0 <= i < 4 ==> draws[i] < ChunkLimit
    ensures IsKey(key)
    ensures ParseKey(key) == draws
  {
    key := "";
    var i := 0;
    while i < 4
      invariant 0 <= i <= 4
      invariant |key| == ChunkWidth * i && AllDigits(key)
      invariant Encodes(key, draws, i)
    {
      assert Pow36(5) == ChunkLimit;
      ToBase36Length(draws[i], 5);
      var sub := PadChunk(ToBase36(draws[i]));
      PrependChunk(sub, key, draws, i);
      key := sub + key;
      i := i + 1;
    }
  }

  /** A key has no '.', so it is the whole stem of "key.ext". */
  lemma KeyHasNoDot(key: string)
    requires IsKey(key)
    ensures '.' !in key
  {
  }
}

=== FILE: seqs.dfy ===
/** Sequence operations of JavaScript arrays that the client code relies on:
    `indexOf` (first position of a value, or -1) and `splice(start, 1)` with
    its clamping of negative and too-large starts. */
module Seqs {

  /** `Array.prototype.indexOf`: the first position holding `x`, or -1. */
  function IndexOf<T(==)>(s: seq<T>, x: T): (r: int)
    ensures -1 <= r < |s|
    ensures r == -1 <==> x !in s
    ensures 0 <= r ==> s[r] == x && x !in s[..r]
  {
    if |s| == 0 then -1
    else if s[0] == x then 0
    else
      var k := IndexOf(s[1..], x);
      assert s[1..][..if k < 0 then 0 else k] == s[1..1 + if k < 0 then 0 else k];
      if k < 0 then -1 else k + 1
  }

  /** `s` without its element at `i`. */
  function RemoveAt<T>(s: seq<T>, i: nat): (r: seq<T>)
    requires i < |s|
    ensures |r| == |s| - 1
    ensures forall k :: 0 <= k < i ==> r[k] == s[k]
    ensures forall k :: i <= k < |r| ==> r[k] == s[k + 1]
  {
    s[..i] + s[i + 1..]
  }

  lemma RemoveAtMultiset<T>(s: seq<T>, i: nat)
    requires i < |s|
    ensures multiset(RemoveAt(s, i)) + multiset{s[i]} == multiset(s)
  {
    assert s == s[..i] + [s[i]] + s[i + 1..];
  }

  /** The position `splice(start, 1)` actually removes at: a negative start
      counts from the end and is clamped at 0, a large one at the length. */
  function SpliceStart(len: nat, start: int): (a: nat)
    ensures a <= len
    ensures 0 <= start ==> a == if start < len then start else len
    ensures start < 0 ==> a == if len + start < 0 then 0 else len + start
  {
    if start < 0 then (if len + start < 0 then 0 else len + start)
    else if start < len then start
    else len
  }

  /** `s.splice(start, 1)`: removes one element at the clamped start, or
      nothing when the clamped start is the end of the array. */
  function Splice1<T>(s: seq<T>, start: int): (r: seq<T>)
    ensures 0 <= start < |s| ==> r == RemoveAt(s, start)
    ensures start >= |s| ==> r == s
    ensures start == -1 && |s| > 0 ==> r == s[..|s| - 1]
  {
    var a := SpliceStart(|s|, start);
    if a < |s| then RemoveAt(s, a) else s
  }
}

=== FILE: thumbs.dfy ===
/** The gallery page's thumbnail grid (thumbs.js): a fixed pool of `<img>`
    slots, `cols` per row and `rows` rows, reused as the page scrolls. Slot `t`
    shows image `virtualRow * cols + t` of the gallery view. Pixel placement,
    scrolling and the timeline are left out. */
module Thumbs {
  import opened Common
  import opened Grid
  import opened DateView

  /** One `<img>` slot: the thumb index its click handler reports, and its
      styling. */
  datatype Slot = Slot(handler: nat, style: Style)

  datatype ThumbGrid = ThumbGrid(cols: nat, rows: nat, size: int, sizeEnd: int, slots: seq<Slot>)

  /** The module state before the first `resize`. */
  const Initial: ThumbGrid := ThumbGrid(0, 0, 0, 0, [])

  /** The styling `resize` gives slot `p`: the common size, or the end width
      for the last slot of a row. */
  function StyleAt(g: ThumbGrid, p: nat): Style {
    if IsEnd(p + 1, g.cols) then ThumbEnd(g.sizeEnd, g.size) else Thumb(g.size, g.size)
  }

  /** There are `cols * rows` slots, slot `p` reports thumb index `p` when
      clicked, and every slot is styled for the current layout. */
  predicate WellFormed(g: ThumbGrid) {
    && |g.slots| == g.cols * g.rows
    && forall p :: 0 <= p < |g.slots| ==> g.slots[p] == Slot(p, StyleAt(g, p))
  }

  lemma InitialWellFormed()
    ensures WellFormed(Initial)
  {
  }

  /** Remove the excess slots from the end, or append unstyled slots whose
      handlers report their own positions. */
  function AdjustSlots(slots: seq<Slot>, count: nat): (r: seq<Slot>)
    ensures |r| == count
    ensures forall p :: 0 <= p < |r| && p < |slots| ==> r[p] == slots[p]
    ensures forall p :: |slots| <= p < |r| ==> r[p] == Slot(p, Unstyled)
    decreases if |slots| < count then count - |slots| else 0
  {
    if |slots| > count then slots[..count]
    else if |slots| == count then slots
    else AdjustSlots(slots + [Slot(|slots|, Unstyled)], count)
  }

  /** Give every slot the styling of the layout. */
  function Restyle(g: ThumbGrid): (r: ThumbGrid)
    ensures r.cols == g.cols && r.rows == g.rows && r.size == g.size && r.sizeEnd == g.sizeEnd
    ensures |r.slots| == |g.slots|
    ensures forall p :: 0 <= p < |r.slots| ==> r.slots[p] == Slot(g.slots[p].handler, StyleAt(g, p))
  {
    g.(slots := seq(|g.slots|, p requires 0 <= p < |g.slots| => Slot(g.slots[p].handler, StyleAt(g, p))))
  }

  /** `resize` as written: when only the row count changes, the slots it
      appends are never styled. */
  function ResizeAsWritten(g: ThumbGrid, width: nat, height: nat): (r: ThumbGrid)
    requires width >= 1
    ensures r.(slots := []) == Resize(g, width, height).(slots := [])
    ensures |r.slots| == |Resize(g, width, height).slots|
    ensures ColumnsFor(width).count != g.cols || ColumnsFor(width).size != g.size || ColumnsFor(width).endSize != g.sizeEnd ==>
      r == Resize(g, width, height)
  {
    var c := ColumnsFor(width);
    var rows := RowsFor(height, c.size).value;
    var needResize := c.count != g.cols || c.size != g.size || c.endSize != g.sizeEnd;
    if rows != g.rows || needResize then
      var g' := ThumbGrid(c.count, rows, c.size, c.endSize, AdjustSlots(g.slots, c.count * rows));
      if needResize then Restyle(g') else g'
    else g
  }

  lemma Columns1000()
    ensures ColumnsFor(1000).count == 5 && ColumnsFor(1000).size == 199
  {
    assert CeilDiv(1002, 202) == 5;
    assert CeilDiv(1002, 5) == 201;
  }

  lemma Rows199()
    ensures RowsFor(100, 199) == Some(2) && RowsFor(500, 199) == Some(4)
  {
    assert CeilDiv(100, 199) == 1;
    assert CeilDiv(500, 199) == 3;
  }

  /** A 1000 x 100 grid grown to 1000 x 500: the row count goes from 2 to 4
      with the columns unchanged, and the ten appended slots, 10 to 19, have
      no size. */
  lemma TallerWindowLeavesSlotsUnstyled()
    ensures |ResizeAsWritten(Initial, 1000, 100).slots| == 10
    ensures |ResizeAsWritten(ResizeAsWritten(Initial, 1000, 100), 1000, 500).slots| == 20
    ensures forall p :: 10 <= p < 20 ==> ResizeAsWritten(ResizeAsWritten(Initial, 1000, 100), 1000, 500).slots[p].style == Unstyled
  {
    Columns1000();
    Rows199();
    var c := ColumnsFor(1000);
    var g0 := ResizeAsWritten(Initial, 1000, 100);
    assert g0 == Restyle(ThumbGrid(5, 2, 199, c.endSize, AdjustSlots([], 10)));
    var g1 := ResizeAsWritten(g0, 1000, 500);
    assert g1 == ThumbGrid(5, 4, 199, c.endSize, AdjustSlots(g0.slots, 20));
  }

  /** `resize` with every slot styled whenever the grid changed. The layout
      follows the container size, the slot count is `cols * rows`, and the
      grid stays well-formed. */
  function Resize(g: ThumbGrid, width: nat, height: nat): (r: ThumbGrid)
    requires width >= 1
    ensures r.cols == ColumnsFor(width).count && r.size == ColumnsFor(width).size
    ensures r.sizeEnd == ColumnsFor(width).endSize
    ensures Some(r.rows) == RowsFor(height, r.size)
    ensures WellFormed(g) ==> WellFormed(r)
    ensures |g.slots| == g.cols * g.rows ==> |r.slots| == r.cols * r.rows
  {
    var c := ColumnsFor(width);
    var rows := RowsFor(height, c.size).value;
    var needResize := c.count != g.cols || c.size != g.size || c.endSize != g.sizeEnd;
    if rows != g.rows || needResize then
      Restyle(ThumbGrid(c.count, rows, c.size, c.endSize, AdjustSlots(g.slots, c.count * rows)))
    else g
  }

  /** After a resize the rows of slots cover the container height with one
      row to spare, and a row of slots covers its width exactly. */
  lemma ResizeCovers(g: ThumbGrid, width: nat, height: nat)
    requires width >= 1
    ensures Resize(g, width, height).rows * Resize(g, width, height).size >= height + Resize(g, width, height).size
    ensures RowSpan(ColumnsFor(width), Resize(g, width, height).cols) == width
  {
    RowFillsWidth(width);
  }

  /** The slot count `cols * rows` that `resize` as written grows the grid
      towards, as a double: a number, `Infinity` when the size is 0 and the
      height is not (the append loop then never ends), or `NaN` when both are
      0 (the loop then runs no iteration). */
  datatype SlotTarget = Slots(count: nat) | Unbounded | NotANumber

  function SlotTargetAsWritten(width: nat, height: nat): (r: SlotTarget)
    ensures r.Unbounded? <==> width == 0 && height >= 1
    ensures r.NotANumber? <==> width == 0 && height == 0
    ensures r.Slots? ==> r.count >= ColumnsFor(width).count
  {
    var c := ColumnsFor(width);
    match RowsFor(height, c.size)
    case Some(rows) => Slots(c.count * rows)
    case None => if height == 0 then NotANumber else Unbounded
  }

  /** `resize` with a zero-width container left alone: the grid keeps its
      layout and slots, and any other width is laid out as `Resize` does. */
  function ResizeChecked(g: ThumbGrid, width: nat, height: nat): (r: ThumbGrid)
    ensures WellFormed(g) ==> WellFormed(r)
    ensures |g.slots| == g.cols * g.rows ==> |r.slots| == r.cols * r.rows
    ensures width >= 1 ==> r.cols == ColumnsFor(width).count && Some(r.rows) == RowsFor(height, r.size)
    ensures width == 0 ==> r == g
  {
    if width == 0 then g else Resize(g, width, height)
  }

  /** `virtualRow * cols + thumbIndex`: the view position slot `thumb` stands
      for. */
  function ImageIndex(virtualRow: nat, cols: nat, thumb: nat): nat {
    virtualRow * cols + thumb
  }

  datatype Shown = Hidden | Shows(item: Item)

  /** `updateThumbImage`: the slot shows the image at its position, and is
      hidden past the end of the view. */
  function ThumbImage(view: seq<Item>, virtualRow: nat, cols: nat, thumb: nat): (r: Shown)
    ensures r.Hidden? <==> ImageIndex(virtualRow, cols, thumb) >= |view|
  {
    var i := ImageIndex(virtualRow, cols, thumb);
    if i < |view| then Shows(view[i]) else Hidden
  }

  /** `click(thumbIndex)`: the view position reported to the viewer. */
  function Click(virtualRow: nat, cols: nat, thumbIndex: nat): (r: nat)
    ensures r == ImageIndex(virtualRow, cols, thumbIndex)
    ensures thumbIndex < cols ==> r / cols == virtualRow && r % cols == thumbIndex
  {
    var r := thumbIndex + cols * virtualRow;
    assert thumbIndex < cols ==> r / cols == virtualRow && r % cols == thumbIndex by {
      if thumbIndex < cols {
        RowAndColumn(virtualRow, cols, thumbIndex);
      }
    }
    r
  }

  /** Position `row * cols + col` of a grid with `cols` columns lies in row
      `row` and column `col`. */
  lemma RowAndColumn(row: nat, cols: nat, col: nat)
    requires col < cols
    ensures (col + cols * row) / cols == row && (col + cols * row) % cols == col
  {
    var n := col + cols * row;
    var q, m := n / cols, n % cols;
    assert cols * q + m == n && 0 <= m < cols;
    var d := q - row;
    assert cols * d == col - m by {
      assert cols * q == cols * row + cols * d;
    }
    if d >= 1 {
      assert cols * d >= cols by { MulGrows(cols, d); }
    } else if d <= -1 {
      assert cols * -d >= cols by { MulGrows(cols, -d); }
    }
  }

  lemma MulGrows(a: nat, b: int)
    requires b >= 1
    ensures a * b >= a
  {
  }

  /** Clicking a slot of a well-formed grid opens the image the slot shows. */
  lemma ClickOpensShownImage(g: ThumbGrid, view: seq<Item>, virtualRow: nat, p: nat)
    requires WellFormed(g) && p < |g.slots|
    requires ThumbImage(view, virtualRow, g.cols, p).Shows?
    ensures Click(virtualRow, g.cols, g.slots[p].handler) < |view|
    ensures view[Click(virtualRow, g.cols, g.slots[p].handler)] == ThumbImage(view, virtualRow, g.cols, p).item
  {
  }

  predicate Within(i: int, lo: int, hi: int) {
    lo <= i <= hi
  }

  /** The change listener's slot range: the changed view positions that some
      slot currently stands for, as slot indices. */
  function ThumbRange(cols: nat, virtualRow: nat, children: nat, change: Change): (r: (int, int))
    ensures forall i :: Within(i, r.0, r.1) <==>
      0 <= i < children && Within(cols * virtualRow + i, change.minIndex, change.maxIndex)
  {
    var minImage := cols * virtualRow;
    var maxImage := minImage + children - 1;
    var lo := (if minImage < change.minIndex then change.minIndex else minImage) - minImage;
    var hi := (if maxImage < change.maxIndex then maxImage else change.maxIndex) - minImage;
    (lo, hi)
  }

  /** An entry of the year table: a year and the view position where it
      first appears. */
  datatype YearMark = YearMark(year: int, index: nat)

  /** Position `i` holds a positive year larger than every year before it. */
  predicate IsRecord(years: seq<int>, i: nat)
    requires i < |years|
  {
    years[i] > 0 && forall k :: 0 <= k < i ==> years[k] < years[i]
  }

  /** The largest of 0 and the first `i` years: `lastYear` after `i` steps. */
  function MaxBefore(years: seq<int>, i: nat): (m: int)
    requires i <= |years|
    ensures m >= 0 && forall k :: 0 <= k < i ==> years[k] <= m
    ensures m == 0 || exists k :: 0 <= k < i && years[k] == m
  {
    if i == 0 then 0
    else
      var m := MaxBefore(years, i - 1);
      if years[i - 1] > m then years[i - 1] else m
  }

  /** A position is a record exactly when its year exceeds `lastYear`. */
  lemma RecordAboveMax(years: seq<int>, i: nat)
    requires i < |years|
    ensures years[i] > MaxBefore(years, i) <==> IsRecord(years, i)
  {
  }

  /** The year table built from the first `n` years. */
  function Records(years: seq<int>, n: nat): seq<YearMark>
    requires n <= |years|
  {
    if n == 0 then []
    else Records(years, n - 1) + if years[n - 1] > MaxBefore(years, n - 1) then [YearMark(years[n - 1], n - 1)] else []
  }

  /** Every entry of `t` is a record among the first `n` years, and the
      entries come in view order. */
  predicate SoundTable(years: seq<int>, n: nat, t: seq<YearMark>)
    requires n <= |years|
  {
    && (forall j :: 0 <= j < |t| ==>
         t[j].index < n && t[j].year == years[t[j].index] && IsRecord(years, t[j].index))
    && (forall j, k :: 0 <= j < k < |t| ==> t[j].index < t[k].index)
  }

  /** Every record among the first `n` years has an entry in `t`. */
  predicate CompleteTable(years: seq<int>, n: nat, t: seq<YearMark>)
    requires n <= |years|
  {
    forall i :: 0 <= i < n && IsRecord(years, i) ==> exists j :: 0 <= j < |t| && t[j].index == i
  }

  lemma {:induction false} RecordsSound(years: seq<int>, n: nat)
    requires n <= |years|
    ensures SoundTable(years, n, Records(years, n))
  {
    if n > 0 {
      RecordsSound(years, n - 1);
      RecordAboveMax(years, n - 1);
      var p := Records(years, n - 1);
      var t := Records(years, n);
      if years[n - 1] > MaxBefore(years, n - 1) {
        assert t == p + [YearMark(years[n - 1], n - 1)];
        forall j | 0 <= j < |t|
          ensures t[j].index < n && t[j].year == years[t[j].index] && IsRecord(years, t[j].index)
          ensures j < |p| ==> t[j] == p[j] && t[j].index < n - 1
        {
        }
      } else {
        assert t == p;
      }
    }
  }

  lemma {:induction false} RecordsComplete(years: seq<int>, n: nat)
    requires n <= |years|
    ensures CompleteTable(years, n, Records(years, n))
  {
    if n > 0 {
      RecordsComplete(years, n - 1);
      RecordAboveMax(years, n - 1);
      var p := Records(years, n - 1);
      var t := Records(years, n);
      forall i | 0 <= i < n && IsRecord(years, i) ensures exists j :: 0 <= j < |t| && t[j].index == i {
        if i == n - 1 {
          assert t == p + [YearMark(years[n - 1], n - 1)];
          assert t[|p|].index == i;
        } else {
          var j :| 0 <= j < |p| && p[j].index == i;
          assert t[..|p|] == p;
          assert t[j] == p[j];
        }
      }
    }
  }

  /** Records have increasing years, so the table's years strictly
      increase along with its indices. */
  lemma RecordsIncrease(years: seq<int>, n: nat)
    requires n <= |years|
    ensures forall j, k :: 0 <= j < k < |Records(years, n)| ==>
      Records(years, n)[j].index < Records(years, n)[k].index && Records(years, n)[j].year < Records(years, n)[k].year
  {
    RecordsSound(years, n);
  }

  /** The year table of the change listener, over the years of the view's
      dates: an entry for each position whose year exceeds all before it,
      in view order. */
  method YearTable(years: seq<int>) returns (table: seq<YearMark>)
    ensures forall j :: 0 <= j < |table| ==>
      table[j].index < |years| && table[j].year == years[table[j].index] && IsRecord(years, table[j].index)
    ensures forall j, k :: 0 <= j < k < |table| ==>
      table[j].index < table[k].index && table[j].year < table[k].year
    ensures forall i :: 0 <= i < |years| && IsRecord(years, i) ==>
      exists j :: 0 <= j < |table| && table[j].index == i
  {
    table := [];
    var lastYear := 0;
    var i := 0;
    while i < |years|
      invariant 0 <= i <= |years|
      invariant lastYear == MaxBefore(years, i)
      invariant table == Records(years, i)
    {
      var year := years[i];
      if year > lastYear {
        lastYear := year;
        table := table + [YearMark(year, i)];
      }
      i := i + 1;
    }
    RecordsSound(years, |years|);
    RecordsIncrease(years, |years|);
    RecordsComplete(years, |years|);
  }

  predicate NonDecreasing(years: seq<int>) {
    forall i, j :: 0 <= i < j < |years| ==> years[i] <= years[j]
  }

  /** On the years of a date-sorted view, the entries are exactly the first
      position of each positive year. */
  lemma RecordIsFirstOfYear(years: seq<int>, i: nat)
    requires NonDecreasing(years) && i < |years| && years[i] > 0
    ensures IsRecord(years, i) <==> forall k :: 0 <= k < i ==> years[k] != years[i]
  {
  }
}

=== FILE: touchlist.dfy ===
/** The lookup that feeler.js and client.js both run over their touch
    lists: touches are found by identifier, and a list is searched through
    the sequence of its identifiers. */
module TouchList {
  import opened Seqs

  /** `getTouchIndex` on the identifiers of a touch list: the first position
      holding `id`, or -1 when no touch has it. */
  function FirstIndex(ids: seq<int>, id: int): (r: int)
    ensures -1 <= r < |ids|
    ensures r == -1 <==> id !in ids
    ensures r >= 0 ==> ids[r] == id && forall k :: 0 <= k < r ==> ids[k] != id
  {
    var r := IndexOf(ids, id);
    assert r >= 0 ==> forall k :: 0 <= k < r ==> ids[..r][k] == ids[k];
    r
  }

  /** An identifier appended after the list does not move the first
      position of another one. */
  lemma FirstIndexSnoc(ids: seq<int>, y: int, id: int)
    requires y != id
    ensures FirstIndex(ids + [y], id) == FirstIndex(ids, id)
  {
    var r := FirstIndex(ids, id);
    if r >= 0 {
      assert (ids + [y])[r] == id;
    } else {
      assert id !in ids + [y];
    }
  }
}

=== FILE: viewer.dfy ===
/** The full-size image viewer (image.js): a window of three slots over the
    gallery view, centred on `active`. Slot `k` holds the entry at
    `active + k - 1`, or nothing past either end. Elements, fading, scrolling
    and zoom are left out; a slot holds the view entry it was created for. */
module Viewer {
  import opened Common
  import opened Seqs
  import opened DateView

  /** `numNeighborImages`: slots on each side of the active one. */
  const Neighbors: nat := 1

  /** `images`, `activeIndex` and `lastNavigateDirection`. An empty window is
      a closed viewer. */
  datatype Viewer = Viewer(window: seq<Option<Item>>, active: int, lastDir: int)

  datatype NavError = InvalidDirection(direction: int)

  /** `createImage(index)`: the entry at `index`, or nothing out of range. */
  function CreateImage(view: seq<Item>, index: int): (r: Option<Item>)
    ensures r.None? <==> !(0 <= index < |view|)
    ensures r.Some? ==> r.value == view[index]
  {
    if index < 0 || index >= |view| then None else Some(view[index])
  }

  /** The window invariant: three slots, slot `k` bound to the entry at
      `active + k - 1`. */
  predicate Bound(view: seq<Item>, v: Viewer) {
    |v.window| == 2 * Neighbors + 1
    && forall k :: 0 <= k < |v.window| ==> v.window[k] == CreateImage(view, v.active + k - Neighbors)
  }

  /** What `show(index)` leaves behind: the new window, and whether the
      call threw. For an index outside the view the window is replaced first
      and `onChangeImage` then reads a field of the missing entry and throws,
      so the viewer never takes focus. */
  datatype Opened = Opened(viewer: Viewer, threw: bool)

  /** `show(index)`: open the viewer on the entry at `index`. */
  function Show(view: seq<Item>, index: int, lastDir: int): (r: Opened)
    ensures Bound(view, r.viewer)
    ensures r.viewer.active == index && r.viewer.lastDir == lastDir
    ensures r.threw <==> r.viewer.window[Neighbors].None?
    ensures r.threw <==> !(0 <= index < |view|)
    ensures !r.threw ==> r.viewer.window[Neighbors] == Some(view[index])
  {
    var v := Viewer([CreateImage(view, index - 1), CreateImage(view, index), CreateImage(view, index + 1)], index, lastDir);
    Opened(v, !(0 <= index < |view|))
  }

  /** `navigate(direction)`: step one entry left or right, dropping the slot
      that leaves and creating the one that enters. */
  function Navigate(view: seq<Item>, v: Viewer, d: int): (r: Result<Viewer, NavError>)
    requires |v.window| == 2 * Neighbors + 1
    ensures r.Err? <==> d != 1 && d != -1
    ensures r.Err? ==> r.error == InvalidDirection(d)
    ensures r.Ok? && v.window[Neighbors + d].None? ==> r.value == v
    ensures r.Ok? && v.window[Neighbors + d].Some? ==>
      && r.value.active == v.active + d
      && r.value.lastDir == d
      && |r.value.window| == |v.window|
      && r.value.window[Neighbors + d] == CreateImage(view, v.active + 2 * d)
      && r.value.window[Neighbors] == v.window[Neighbors + d]
    ensures r.Ok? && Bound(view, v) ==> Bound(view, r.value)
  {
    if d != 1 && d != -1 then Err(InvalidDirection(d))
    else if v.window[Neighbors + d].None? then Ok(v)
    else
      var entering := CreateImage(view, v.active + d * (Neighbors + 1));
      var window := if d > 0 then v.window[1..] + [entering] else [entering] + v.window[..|v.window| - 1];
      Ok(Viewer(window, v.active + d, d))
  }

  /** Navigation only moves onto an entry of the view. */
  lemma NavigateStaysInView(view: seq<Item>, v: Viewer, d: int)
    requires Bound(view, v) && 0 <= v.active < |view|
    requires Navigate(view, v, d).Ok?
    ensures 0 <= Navigate(view, v, d).value.active < |view|
  {
    if v.window[Neighbors + d].Some? {
      assert v.window[Neighbors + d] == CreateImage(view, v.active + d);
    }
  }

  /** Stepping one way and back restores the window and the active entry. */
  lemma NavigateBack(view: seq<Item>, v: Viewer, d: int)
    requires Bound(view, v) && 0 <= v.active < |view|
    requires (d == 1 || d == -1) && v.window[Neighbors + d].Some?
    ensures Navigate(view, Navigate(view, v, d).value, -d).Ok?
    ensures Navigate(view, Navigate(view, v, d).value, -d).value == v.(lastDir := -d)
  {
    var w := Navigate(view, v, d).value;
    assert w.window[Neighbors - d] == v.window[Neighbors];
    assert w.window[Neighbors - d] == CreateImage(view, v.active);
    var u := Navigate(view, w, -d).value;
    assert u.window == v.window by {
      forall k | 0 <= k < 3 ensures u.window[k] == v.window[k] {
        assert u.window[k] == CreateImage(view, v.active + k - 1);
      }
    }
  }

  /** `closeImage`: drop every slot. */
  function Close(v: Viewer): (r: Viewer)
    ensures r.window == [] && r.active == v.active && r.lastDir == v.lastDir
  {
    v.(window := [])
  }

  /** Whether `deleteImage` refills from the right: after the last
      navigation went right (or none happened) and an entry now sits at the
      active index, or when the active index is 0. */
  predicate Forward(lastDir: int, active: int, length: nat) {
    (lastDir >= 0 && active < length) || active == 0
  }

  /** `deleteImage`: remove the active entry from the gallery, then close
      the viewer if the view is empty, or shift in a neighbour from the
      chosen side. */
  function DeleteImage(c: Collection, v: Viewer): (r: (Collection, Viewer))
    requires 0 <= v.active < |c.view|
    requires |v.window| == 2 * Neighbors + 1
    ensures r.0 == Remove(c, v.active).value.0
    ensures |r.0.view| == 0 ==> r.1 == Close(v)
    ensures |r.0.view| > 0 && Forward(v.lastDir, v.active, |r.0.view|) ==>
      r.1.active == v.active && r.1.window == [v.window[0], v.window[2], CreateImage(r.0.view, v.active + 1)]
    ensures |r.0.view| > 0 && !Forward(v.lastDir, v.active, |r.0.view|) ==>
      r.1.active == v.active - 1 && r.1.window == [CreateImage(r.0.view, v.active - 2), v.window[0], v.window[2]]
    ensures r.1.lastDir == v.lastDir
    ensures Valid(c) ==> Valid(r.0)
  {
    var c' := Remove(c, v.active).value.0;
    if |c'.view| == 0 then (c', Close(v))
    else
      var rest := v.window[..Neighbors] + v.window[Neighbors + 1..];
      var forward := Forward(v.lastDir, v.active, |c'.view|);
      var direction := if forward then 1 else -1;
      var offset := direction * (Neighbors + if forward then 0 else 1);
      var entering := CreateImage(c'.view, v.active + offset);
      if forward then (c', v.(window := rest + [entering]))
      else (c', v.(window := [entering] + rest, active := v.active - 1))
  }

  /** The two surviving slots of a bound window, seen from the view after
      the active entry is removed: the left one is still the entry before,
      the right one is now at the active index. */
  lemma SurvivorsAfterRemove(view: seq<Item>, v: Viewer)
    requires 0 <= v.active < |view| && Bound(view, v)
    ensures v.window[0] == CreateImage(RemoveAt(view, v.active), v.active - 1)
    ensures v.window[2] == CreateImage(RemoveAt(view, v.active), v.active)
  {
    assert v.window[0] == CreateImage(view, v.active - 1);
    assert v.window[2] == CreateImage(view, v.active + 1);
  }

  /** A window refilled as `deleteImage` does is bound to the view without
      the active entry, and its active index lies in that view. */
  lemma RefillBound(view: seq<Item>, v: Viewer, v': Viewer)
    requires 0 <= v.active < |view| && Bound(view, v) && |view| > 1
    requires Forward(v.lastDir, v.active, |view| - 1) ==>
      v'.active == v.active && v'.window == [v.window[0], v.window[2], CreateImage(RemoveAt(view, v.active), v.active + 1)]
    requires !Forward(v.lastDir, v.active, |view| - 1) ==>
      v'.active == v.active - 1 && v'.window == [CreateImage(RemoveAt(view, v.active), v.active - 2), v.window[0], v.window[2]]
    ensures Bound(RemoveAt(view, v.active), v') && 0 <= v'.active < |view| - 1
  {
    SurvivorsAfterRemove(view, v);
    var view' := RemoveAt(view, v.active);
    if Forward(v.lastDir, v.active, |view'|) {
      Refilled(view', v', v.active - 1);
    } else {
      Refilled(view', v', v.active - 2);
    }
  }

  /** Three slots holding the entries from `first` on are bound. */
  lemma Refilled(view: seq<Item>, v: Viewer, first: int)
    requires |v.window| == 3 && v.active == first + 1
    requires forall k :: 0 <= k < 3 ==> v.window[k] == CreateImage(view, first + k)
    ensures Bound(view, v)
  {
  }

  /** After a delete that leaves entries, the window is bound to the new view
      and the active index lies inside it. */
  lemma DeleteImageKeepsWindow(c: Collection, v: Viewer)
    requires 0 <= v.active < |c.view|
    requires Bound(c.view, v)
    ensures |DeleteImage(c, v).0.view| > 0 ==> Bound(DeleteImage(c, v).0.view, DeleteImage(c, v).1)
    ensures |DeleteImage(c, v).0.view| > 0 ==> 0 <= DeleteImage(c, v).1.active < |DeleteImage(c, v).0.view|
  {
    var r := DeleteImage(c, v);
    if |r.0.view| > 0 {
      RefillBound(c.view, v, r.1);
    }
  }

  /** Deleting the only entry closes the viewer. */
  lemma DeleteLastCloses(c: Collection, v: Viewer)
    requires |c.view| == 1 && v.active == 0 && |v.window| == 2 * Neighbors + 1
    ensures DeleteImage(c, v).1.window == []
  {
  }
}
